=== FILE: README.md ===
# db_sync schema diff, in Dafny

`db_sync.py` compares two MariaDB databases, a source and a target. It writes
the SQL script that would make the target's structure match the source's. The
script opens with a banner and switches foreign key checks off. Then comes one
pass over the source tables:

- a table the target lacks gets its `SHOW CREATE TABLE` text;
- a shared table gets its column, index and foreign-key differences as
  `ALTER TABLE` statements.

Every target-only table is then dropped, and foreign key checks are switched
on again. The script is saved command by command. Each command is stripped,
blank ones are skipped, a `;` is appended when missing, and each command is
followed by a line break.

This project models that engine. Introspection is abstracted away: each
database is given as an immutable snapshot.

- `Schema`: one record per catalog row (`Column`, `Index`, `ForeignKey`,
  `Table`), plus insertion-ordered dictionaries.
- `Ddl`: the statements the differs emit (`Stmt`) and their exact rendering.
  The rendering is character for character what the f-strings build,
  including the double space in `ADD  INDEX` for a non-unique index and the
  twenty-space indentation of `ADD CONSTRAINT`.
- `ColumnDiff`: the column differ.
- `IndexDiff`: the index differ.
- `ForeignKeyDiff`: the foreign-key differ.
- `Sync`: script assembly.
- `Save`: line formatting of the saved file.
- `Text`: Python's `strip`, `split`, `join`, `upper`, `replace` and integer
  formatting, on `seq<char>`.
- `Base`: `Option`, `Result` and enumerations.

Python iterates a set in an order the program does not control. That happens
three times, for the target-only indexes, constraints and tables. In the model
each of these orders is an extra argument (`dropOrder`, `Orders`). It may be
any enumeration of the set: each member exactly once, in any order. Every
property is proved for all such orders.

## Model

| member | source | states |
|---|---|---|
| Text.Trim | db_sync.py:251 | `strip()`: the result is the part of the text between its leading and trailing whitespace runs; neither of its ends is whitespace; it is empty exactly when the text is all whitespace |
| Text.TrimIdempotent | db_sync.py:251 | stripping a stripped text changes nothing |
| Text.SplitJoinRoundTrip | db_sync.py:164 | splitting the comma-join of comma-free names at ',' gives back exactly those names |
| Text.RemoveAll | db_sync.py:93 | `replace("'", "")` leaves no quote, is shorter exactly when there was one, and is the identity otherwise |
| Text.RemoveAllKeepsOthers | db_sync.py:93 | removing the quotes keeps every other character as often as it occurred |
| Text.RemoveAllAppend | db_sync.py:93 | removing a character from a concatenation removes it from each part |
| Text.IntToStringRoundTrip | db_sync.py:96 | a numeric default written with `f"{default}"` reads back as the same integer |
| Schema.Get | db_sync.py:158 | `dict.get`: `None` exactly when the key is absent, otherwise a value stored under that key |
| Schema.GetEntry | db_sync.py:154-158 | with unique keys, looking up an entry's own name finds that entry's value |
| Schema.FindColumn | db_sync.py:106-111 | the column map lookup: `None` exactly when no target column has the name, otherwise a column of that name |
| Schema.FindColumnAt | db_sync.py:106-111 | the lookup finds column i when no later column shares its name: a later duplicate overwrites it in the comprehension |
| Ddl.NullClause | db_sync.py:82 | " NULL" exactly when IS_NULLABLE is the text 'YES', " NOT NULL" otherwise |
| Ddl.DefaultClause | db_sync.py:84-96 | no clause exactly for an absent default; NULL and CURRENT_TIMESTAMP, in any letter case, are written bare in upper case; other text becomes a quoted literal with no quote inside; a number is written as a numeral that parses back to it |
| Ddl.DefaultClauseRoundTrip | db_sync.py:84-96 | parsing the written clause gives back `AppliedDefault(d)`: keywords upper-cased, quotes removed from text, anything else unchanged |
| Ddl.AppliedDefaultFaithful | db_sync.py:87-94 | the written default equals the original exactly when the default is absent, a number, an upper-case keyword, or text with no single quote |
| Ddl.ExtraClause | db_sync.py:98-99 | no text exactly when EXTRA is empty; otherwise a space followed by EXTRA |
| Ddl.ColumnDefinition | db_sync.py:79-101 | the definition opens with the quoted name, the type and the NULL clause, and closes with the EXTRA clause; what lies between parses back to `AppliedDefault` of the column's default |
| Ddl.PositionClause | db_sync.py:116-122 | "FIRST" exactly for the first position; otherwise AFTER followed by the quoted column name |
| Ddl.ColumnList | db_sync.py:164 | the rendered list of names is never empty, and it opens and closes with a backtick |
| Ddl.ColumnListOfGroupConcat | db_sync.py:164 | for a GROUP_CONCAT list of names, the rendered list is exactly those names, each in backticks, in index order, joined by ", " |
| Ddl.StmtBody | db_sync.py:117-191 | every ADD COLUMN, ADD INDEX and ADD CONSTRAINT body opens with "ADD ", a MODIFY COLUMN body with "MODIFY ", and every DROP body with "DROP " |
| Ddl.RenderStmt | db_sync.py:117-131 | every statement a differ emits opens with ``ALTER TABLE `t` `` for the table it belongs to |
| ColumnDiff.ColumnsMatch | db_sync.py:135-142 | two columns match exactly when they are equal once the name is set aside |
| ColumnDiff.PositionAfter | db_sync.py:116 | FIRST exactly when there is no previous column or its name is empty; otherwise AFTER that column |
| ColumnDiff.ColumnStep | db_sync.py:110-125 | one source column: nothing exactly when the target has a matching column of that name; otherwise one statement at the position after `prev_column`, an ADD exactly when the target lacks the name and a MODIFY exactly when it has it |
| ColumnDiff.AddModifyFrom | db_sync.py:107-125 | the first loop, with `prev_column` carried from one iteration to the next: it emits only ADD and MODIFY COLUMN, each on this table and carrying a source column |
| ColumnDiff.AddModifyTracksPrevious | db_sync.py:107-125 | `prev_column` at iteration k is the name of source column k-1, or None at k = 0: the loop gives the same statements as placing each column after its source predecessor |
| ColumnDiff.EmittedPositions | db_sync.py:107-125 | every ADD or MODIFY carries some source column i and is placed FIRST when i = 0, otherwise after the name of source column i-1 (FIRST when that name is empty) |
| ColumnDiff.DropPass | db_sync.py:127-131 | the second loop emits only DROP COLUMN, each on this table and for a target column name the source lacks |
| ColumnDiff.DropPassAppend | db_sync.py:129-131 | the drops follow target order: the drops of a concatenation are the concatenated drops |
| ColumnDiff.ColumnSql | db_sync.py:103-133 | only column statements, each on this table |
| ColumnDiff.ColumnSqlOrder | db_sync.py:109-131 | every ADD and MODIFY precedes every DROP |
| ColumnDiff.SourceOrder | db_sync.py:109-125 | with distinct source names, for source columns a < b, every statement about column a comes before every statement about column b |
| ColumnDiff.ColumnSqlMembers | db_sync.py:109-131 | only source columns are added or modified; only target column names the source lacks are dropped |
| ColumnDiff.SourceColumnStatements | db_sync.py:109-125 | with distinct source names, per source column: one ADD at its source position when the target lacks it; one MODIFY at its source position when it differs; nothing when it matches |
| ColumnDiff.TargetOnlyColumnStatements | db_sync.py:127-131 | a target column whose name the source lacks gets exactly one DROP and nothing else |
| ColumnDiff.UnknownColumnStatements | db_sync.py:109-131 | a name that neither the source nor the target columns have gets no statement at all |
| ColumnDiff.ColumnSqlAgainstItself | db_sync.py:103-142 | a column list diffed against itself yields no statement |
| IndexDiff.DropExtra | db_sync.py:148-151 | the first loop emits only DROP INDEX, for names in the drop order, and never for PRIMARY |
| IndexDiff.IndexStep | db_sync.py:154-165 | one source index yields only statements about itself, and nothing at all for PRIMARY |
| IndexDiff.AddChanged | db_sync.py:154-165 | the second loop emits only index statements on this table, none naming PRIMARY |
| IndexDiff.IndexSql | db_sync.py:144-167 | only index statements, on this table, never naming PRIMARY |
| IndexDiff.IndexSqlOrder | db_sync.py:148-165 | every statement about an index the source lacks is a DROP of a target index, and comes before every statement about a source index |
| IndexDiff.AboutDropExtraOnce | db_sync.py:149-151 | a name listed once in the drop order is dropped exactly once, unless it is PRIMARY |
| IndexDiff.SourceIndexStatements | db_sync.py:154-165 | per source index: PRIMARY gets nothing; a new index gets one ADD; one whose column text or uniqueness changed gets a DROP and then an ADD; an unchanged one gets nothing |
| IndexDiff.ChangedIndexAdjacent | db_sync.py:159-165 | a changed index other than PRIMARY is dropped and re-added in two consecutive statements |
| IndexDiff.TargetOnlyIndexStatements | db_sync.py:149-151 | a target-only index other than PRIMARY gets exactly one DROP and nothing else |
| IndexDiff.IndexSqlAgainstItself | db_sync.py:144-167 | an index map diffed against itself yields no statement, whatever the set order |
| ForeignKeyDiff.DropExtra | db_sync.py:173-175 | the first loop emits one DROP FOREIGN KEY per name in the drop order, and nothing else |
| ForeignKeyDiff.ForeignKeyStep | db_sync.py:178-191 | one source constraint yields only statements about itself |
| ForeignKeyDiff.AddChanged | db_sync.py:178-191 | the second loop emits only foreign-key statements on this table |
| ForeignKeyDiff.ForeignKeySql | db_sync.py:169-193 | only foreign-key statements, on this table |
| ForeignKeyDiff.ForeignKeySqlOrder | db_sync.py:173-191 | every statement about a constraint the source lacks is a DROP of a target constraint, and comes before every statement about a source constraint |
| ForeignKeyDiff.AboutDropExtraOnce | db_sync.py:174-175 | a name listed once in the drop order is dropped exactly once |
| ForeignKeyDiff.SourceForeignKeyStatements | db_sync.py:178-191 | per source constraint: a new one gets one ADD; one whose record differs in any field gets a DROP and then an ADD carrying the source record; an identical one gets nothing |
| ForeignKeyDiff.ChangedForeignKeyAdjacent | db_sync.py:180-191 | a changed constraint is dropped and re-added, with the source record, in two consecutive statements |
| ForeignKeyDiff.TargetOnlyForeignKeyStatements | db_sync.py:174-175 | a target-only constraint gets exactly one DROP and nothing else, PRIMARY or not |
| ForeignKeyDiff.ForeignKeySqlAgainstItself | db_sync.py:169-193 | a constraint map diffed against itself yields no statement |
| ForeignKeyDiff.AddConstraintCarriesRules | db_sync.py:187-191 | the rendered ADD CONSTRAINT ends with the source's ON UPDATE and ON DELETE rules, each on its own indented line |
| Sync.TableStmts | db_sync.py:223-228 | every statement for a shared table is on that table |
| Sync.RenderLine | db_sync.py:204-237 | the CREATE and DROP comments and the closing switch open with a line break; the banner, the opening switch, DROP TABLE and every ALTER TABLE do not |
| Sync.TableLines | db_sync.py:208-228 | one source table contributes only CREATE comment, CREATE text and ALTER entries |
| Sync.TablePass | db_sync.py:208-228 | the table loop writes no banner, no foreign-key switch and no table drop |
| Sync.DropTables | db_sync.py:231-235 | only table-drop entries, two per name in the drop order |
| Sync.DropTablesEntries | db_sync.py:231-235 | entries 2k and 2k+1 are the comment and the DROP TABLE for the k-th name of the drop order |
| Sync.SyncScript | db_sync.py:204-237 | the script has at least three entries: it opens with the banner and the switch that turns checks off, and it ends with the switch that turns them on |
| Sync.SyncSqlFraming | db_sync.py:204-237 | the same framing, as the exact strings returned |
| Sync.SyncSql | db_sync.py:204-237 | the returned list has one string per script entry |
| Sync.TableStmtsOrder | db_sync.py:226-228 | for a shared table, column statements come before index statements, which come before foreign-key statements |
| Sync.TableDropsLast | db_sync.py:230-237 | after a table-drop entry, only further table drops and the closing switch follow |
| Sync.TablePassCreates | db_sync.py:208-219 | a CREATE comment for a name is written exactly when a source table has that name and the target has none |
| Sync.NewTableNotAltered | db_sync.py:211-220 | no ALTER TABLE is written on a table the target lacks |
| Sync.NewTableCreated | db_sync.py:211-219 | the CREATE text of every source table the target lacks is written |
| Sync.DropTablesCount | db_sync.py:231-235 | DROP TABLE for a name appears as often as the name occurs in the drop order |
| Sync.TableDropCount | db_sync.py:231-235 | a table is dropped exactly once when only the target has it, and otherwise never |
| Sync.TablePassAgainstItself | db_sync.py:208-228 | tables the target holds in exactly the same shape contribute nothing |
| Sync.SyncAgainstItself | db_sync.py:204-237 | a well-formed database synchronized with itself yields just the banner and the two switches |
| Save.FormatCommand | db_sync.py:251-254 | a blank command is skipped exactly when it is all whitespace; otherwise the result is its strip plus a `;` exactly when the strip lacks one, and it always ends in `;` |
| Save.FormatCommandIdempotent | db_sync.py:251-254 | formatting a formatted command changes nothing |
| Save.SaveText | db_sync.py:245-255 | an error exactly when no command was generated; otherwise the text is the entries, each followed by a line break |
| Save.LinesAppend | db_sync.py:249-255 | the written text of a concatenation of entries is the concatenation of their texts |
| Save.LinesOfOne | db_sync.py:255 | one entry is written as itself followed by a line break |
| Save.NonBlank | db_sync.py:251-252 | the commands that are not all whitespace: no more than given, each one of the commands, and every such command kept |
| Save.EntriesOfNonBlank | db_sync.py:249-255 | there is one entry per non-blank command, and entry k is the formatting of the k-th non-blank command |
| Save.SaveTextOne | db_sync.py:249-255 | a single command is written as nothing when it is all whitespace, otherwise as its formatting and a line break |
| Save.SaveTextAppend | db_sync.py:249-255 | commands are saved independently: the text saved for a concatenation is the two texts one after the other |
| Save.EntriesAppend | db_sync.py:249-255 | commands are written independently: the entries of a concatenation are the concatenated entries |
| Save.EntriesIdempotent | db_sync.py:249-255 | saving the written entries again writes the same entries |
| Save.LineBreakDropped | db_sync.py:251 | any command opening with a line break is formatted exactly as the command without it, so no blank line is written before it |
| Save.SavedScriptFraming | db_sync.py:249-255 | the saved script starts with the banner, which gains a `;`, and the switch that turns checks off; it ends with the switch that turns them on, without its line break |
| Save.SavedSelfSync | db_sync.py:245-255 | a well-formed database synchronized with itself is saved as exactly three lines: the banner with a `;` appended, and the two switches, the second without its line break |

## Behaviour worth knowing

- Quotes in a text default are removed (`replace("'", "")`). A default such
  as `O'Brien` is written as `'OBrien'` (`Ddl.AppliedDefaultFaithful`).
- The CREATE and DROP comment entries and the closing switch begin with a
  line break. `strip()` removes it before the entry is written, so no blank
  line comes before them (`Save.LineBreakDropped`). A blank line inside a
  command, such as one in a CREATE text or in a text default, is kept.
- A `;` is appended to comment lines too, for example
  `-- Database synchronization script;` (`Save.SavedScriptFraming`).

## Left out

- Connections and catalog queries (`get_connection`, `get_tables`,
  `get_table_structure`, `SHOW CREATE TABLE`, db_sync.py:12-77, 198-202, 209,
  213-215, 223) are not modelled. Their results are the `Database` inputs: the
  table order, the rows of each query, and the CREATE text.
- The wrapping of any exception into a RuntimeError (db_sync.py:240-241) is left
  out, because no modelled operation fails.
- Opening and writing the file and the final message (db_sync.py:248, 255-256)
  are left out. `Save.SaveText` yields the text that would be written.
- main.py and db_config.py are not part of this model.
- Python's `upper()` is modelled on ASCII letters only. Unicode case mapping
  has no Dafny counterpart.
- A COLUMN_DEFAULT other than `None`, a string or an integer (a float, a
  Decimal, a date) is not modelled. Such a value is written with `f"{default}"`,
  whose text depends on Python's formatting of that type.
- The truthiness tests `not tcol`, `not tidx` and `not tfk` are modelled as
  "the key is absent". A fetched row is a non-empty dict, so it is never false.
- ColumnDiff.SourceColumnStatements: requires distinct source column names.
  With a duplicate name, statements about that name come from several
  iterations.
- ColumnDiff.TargetOnlyColumnStatements: requires distinct target column
  names. A duplicated target name would be dropped twice.
- IndexDiff.SourceIndexStatements and ForeignKeyDiff.SourceForeignKeyStatements
  require distinct source keys. A Python dict has them by construction.
- ColumnDiff.ColumnSqlAgainstItself, IndexDiff.IndexSqlAgainstItself,
  ForeignKeyDiff.ForeignKeySqlAgainstItself and Sync.SyncAgainstItself require
  unique names, as a real catalog guarantees (`Schema.WellFormed`).

=== FILE: base.dfy ===
/** Failure-carrying datatypes shared by the whole model. */
module Base {

  /** A value that may be missing: Python's `None` versus a present value. */
  datatype Option<+T> = None | Some(value: T)

  /** The outcome of an operation that can raise: a value, or the error it raised. */
  datatype Result<+T, +E> = Ok(value: T) | Err(error: E)

  /** `s` lists every element of `xs` exactly once, in some order. This is how the
      model speaks about iterating a Python `set`, whose order is unspecified. */
  predicate IsEnumeration<T>(s: seq<T>, xs: set<T>)
  {
    multiset(s) == multiset(xs)
  }

  /** The only enumeration of the empty set is the empty sequence. */
  lemma EnumerationOfEmpty<T>(s: seq<T>)
    requires IsEnumeration(s, {})
    ensures s == []
  {
    assert |multiset(s)| == 0;
  }
}

=== FILE: column_diff.dfy ===
/** The column differ: `generate_column_sql` and `_columns_match`. One pass over
    the source columns emits ADD or MODIFY with a position clause; a second pass
    over the target columns emits DROP for the columns the source lacks. */
module ColumnDiff {
  import opened Base
  import opened Schema
  import opened Ddl

  /** `_columns_match`: type, nullability, default and extra agree. The name is
      not compared, and nothing else is: two columns match exactly when they are
      equal once their names are. */
  function ColumnsMatch(a: Column, b: Column): (r: bool)
    ensures r <==> a.(name := b.name) == b
  {
    && a.columnType == b.columnType
    && a.isNullable == b.isNullable
    && a.default == b.default
    && a.extra == b.extra
  }

  /** The position clause given the previous source column's name:
      `"FIRST" if not prev_column else ...`. Python treats both `None` and the
      empty name as false, so both give FIRST. */
  function PositionAfter(prev: Option<string>): (p: Position)
    ensures p == First <==> (prev.None? || prev.value == "")
    ensures p.After? ==> p.column == prev.value
  {
    if prev.None? || prev.value == "" then First else After(prev.value)
  }

  /** `prev_column` as the first loop should hold it on reaching source column
      i: nothing before the first column, the name of column i - 1 after. */
  function PrevColumn(src: seq<Column>, i: nat): Option<string>
    requires i <= |src|
  {
    if i == 0 then None else Some(src[i - 1].name)
  }

  /** The position the source order asks for column i: after the source column
      just before it, or first. */
  function SourcePosition(src: seq<Column>, i: nat): Position
    requires i < |src|
  {
    PositionAfter(PrevColumn(src, i))
  }

  /** The body of the first loop for one source column, `prev` holding
      `prev_column`: nothing when the target has a matching column of that
      name, otherwise one ADD (no such target column) or one MODIFY, placed
      where `prev` says. */
  function ColumnStep(table: string, col: Column, prev: Option<string>, target: seq<Column>): (r: seq<Stmt>)
    ensures r == [] <==> col.name in ColumnNames(target) && ColumnsMatch(col, FindColumn(target, col.name).value)
    ensures |r| <= 1
    ensures forall s <- r ::
      && (s.AddColumn? || s.ModifyColumn?)
      && s.table == table && s.column == col && s.position == PositionAfter(prev)
    ensures forall s <- r :: s.AddColumn? <==> col.name !in ColumnNames(target)
    ensures forall s <- r :: s.ModifyColumn? <==> col.name in ColumnNames(target)
  {
    match FindColumn(target, col.name)
    case None => [AddColumn(table, col, PositionAfter(prev))]
    case Some(t) =>
      if ColumnsMatch(col, t) then [] else [ModifyColumn(table, col, PositionAfter(prev))]
  }

  /** The first loop, from source column k on, `prev` holding `prev_column`.
      After every column, whether or not it emitted anything, `prev_column`
      becomes that column's name. Only ADD and MODIFY statements come out,
      each on this table and about a column from k on. */
  function AddModifyFrom(table: string, src: seq<Column>, k: nat, prev: Option<string>, target: seq<Column>): (r: seq<Stmt>)
    requires k <= |src|
    ensures forall s <- r :: (s.AddColumn? || s.ModifyColumn?) && s.table == table && s.column in src
    decreases |src| - k
  {
    if k == |src| then []
    else
      var rest := AddModifyFrom(table, src, k + 1, Some(src[k].name), target);
      ColumnStep(table, src[k], prev, target) + rest
  }

  /** The first loop's statements from column k on, each column placed by its
      index alone, with no loop state: the reference the loop is held to. */
  function SourceSteps(table: string, src: seq<Column>, k: nat, target: seq<Column>): (r: seq<Stmt>)
    requires k <= |src|
    decreases |src| - k
  {
    if k == |src| then []
    else StepAt(table, src, k, target) + SourceSteps(table, src, k + 1, target)
  }

  /** Column i's iteration with `prev_column` at the name of column i - 1. */
  function StepAt(table: string, src: seq<Column>, i: nat, target: seq<Column>): seq<Stmt>
    requires i < |src|
  {
    ColumnStep(table, src[i], PrevColumn(src, i), target)
  }

  /** The second loop: a DROP, in target order, for each target column whose
      name the source lacks. */
  function DropPass(table: string, target: seq<Column>, sourceNames: set<string>): (r: seq<Stmt>)
    ensures forall s <- r :: s.DropColumn? && s.table == table && s.name !in sourceNames
    ensures forall s <- r :: s.name in ColumnNames(target)
  {
    if target == [] then []
    else
      var rest := DropPass(table, target[1..], sourceNames);
      (if target[0].name in sourceNames then [] else [DropColumn(table, target[0].name)]) + rest
  }

  /** `generate_column_sql`: the ADD/MODIFY pass, starting with no previous
      column, followed by the DROP pass. */
  function ColumnSql(table: string, src: seq<Column>, target: seq<Column>): (r: seq<Stmt>)
    ensures forall s <- r :: s.IsColumnStmt() && s.table == table
  {
    AddModifyFrom(table, src, 0, None, target) + DropPass(table, target, ColumnNames(src))
  }

  /** The loop variable `prev_column` is right: reaching column k holding the
      name of column k - 1, the loop emits exactly what placing every column
      by its index gives, though columns in between may emit nothing. */
  lemma {:induction false} AddModifyTracksPrevious(table: string, src: seq<Column>, k: nat, target: seq<Column>)
    requires k <= |src|
    ensures AddModifyFrom(table, src, k, PrevColumn(src, k), target) == SourceSteps(table, src, k, target)
    decreases |src| - k
  {
    if k < |src| {
      AddModifyTracksPrevious(table, src, k + 1, target);
      assert PrevColumn(src, k + 1) == Some(src[k].name);
    }
  }

  /** The first loop of `generate_column_sql` is the source steps in order. */
  lemma FirstLoop(table: string, src: seq<Column>, target: seq<Column>)
    ensures ColumnSql(table, src, target)
         == SourceSteps(table, src, 0, target) + DropPass(table, target, ColumnNames(src))
  {
    AddModifyTracksPrevious(table, src, 0, target);
  }

  /** Every ADD and MODIFY precedes every DROP. */
  lemma ColumnSqlOrder(table: string, src: seq<Column>, target: seq<Column>)
    ensures var r := ColumnSql(table, src, target);
      forall j, k :: 0 <= j < k < |r| && r[j].DropColumn? ==> r[k].DropColumn?
  {
    DropsLast(AddModifyFrom(table, src, 0, None, target), DropPass(table, target, ColumnNames(src)));
  }

  lemma DropsLast(a: seq<Stmt>, b: seq<Stmt>)
    requires forall s <- a :: !s.DropColumn?
    requires forall s <- b :: s.DropColumn?
    ensures forall j, k :: 0 <= j < k < |a + b| && (a + b)[j].DropColumn? ==> (a + b)[k].DropColumn?
  {
    var r := a + b;
    assert forall j | 0 <= j < |a| :: r[j] == a[j] && a[j] in a;
    assert forall k | |a| <= k < |r| :: r[k] == b[k - |a|] && b[k - |a|] in b;
  }

  /** Only source columns are added or modified, and only columns whose name the
      source lacks are dropped. */
  lemma ColumnSqlMembers(table: string, src: seq<Column>, target: seq<Column>)
    ensures forall s <- ColumnSql(table, src, target) ::
      (s.AddColumn? || s.ModifyColumn?) ==> s.column in src
    ensures forall s <- ColumnSql(table, src, target) ::
      s.DropColumn? ==> s.name !in ColumnNames(src) && s.name in ColumnNames(target)
  {
  }

  /** Every ADD and MODIFY is placed where the source order puts its column:
      FIRST for the first source column, otherwise after the source column just
      before it, whether or not that column produced a statement. */
  lemma EmittedPositions(table: string, src: seq<Column>, target: seq<Column>)
    ensures forall s <- ColumnSql(table, src, target) | s.AddColumn? || s.ModifyColumn? ::
      exists i :: 0 <= i < |src| && s.column == src[i]
        && s.position == PositionAfter(if i == 0 then None else Some(src[i - 1].name))
  {
    var steps := SourceSteps(table, src, 0, target);
    var drops := DropPass(table, target, ColumnNames(src));
    FirstLoop(table, src, target);
    StepColumns(table, src, 0, target);
    forall s: Stmt | s in steps + drops && (s.AddColumn? || s.ModifyColumn?)
      ensures exists i :: 0 <= i < |src| && s.column == src[i] && s.position == SourcePosition(src, i)
    {
      assert s in steps;
    }
  }

  /** From column k on, every statement is about one of the columns from k on,
      and carries that column's source position. */
  lemma {:induction false} StepColumns(table: string, src: seq<Column>, k: nat, target: seq<Column>)
    requires k <= |src|
    ensures forall s <- SourceSteps(table, src, k, target) ::
      && (s.AddColumn? || s.ModifyColumn?)
      && exists i :: k <= i < |src| && s.column == src[i] && s.position == SourcePosition(src, i)
    decreases |src| - k
  {
    if k < |src| {
      var step := StepAt(table, src, k, target);
      StepColumns(table, src, k + 1, target);
      assert SourceSteps(table, src, k, target) == step + SourceSteps(table, src, k + 1, target);
      forall s: Stmt | s in step
        ensures (s.AddColumn? || s.ModifyColumn?)
          && exists i :: k <= i < |src| && s.column == src[i] && s.position == SourcePosition(src, i)
      {
        assert s.column == src[k] && s.position == SourcePosition(src, k);
      }
    }
  }

  /** The statements about each source column come in source order: with
      distinct source names, everything about column a comes before everything
      about a later column b. */
  lemma SourceOrder(table: string, src: seq<Column>, target: seq<Column>, a: nat, b: nat)
    requires DistinctColumnNames(src)
    requires a < b < |src|
    ensures var r := ColumnSql(table, src, target);
      forall j, k | 0 <= j < |r| && 0 <= k < |r| && r[j].Subject() == src[a].name
        && r[k].Subject() == src[b].name :: j < k
  {
    var steps := SourceSteps(table, src, 0, target);
    var drops := DropPass(table, target, ColumnNames(src));
    FirstLoop(table, src, target);
    StepsOrder(table, src, 0, target, a, b);
    assert src[a] in src && src[b] in src;
    BeforeThenOthers(steps, drops, src[a].name, src[b].name);
  }

  /** The steps from column k on put everything about column a before
      everything about a later column b. */
  lemma {:induction false} StepsOrder(table: string, src: seq<Column>, k: nat, target: seq<Column>, a: nat, b: nat)
    requires DistinctColumnNames(src)
    requires k <= a < b < |src|
    ensures Before(SourceSteps(table, src, k, target), src[a].name, src[b].name)
    decreases |src| - k
  {
    var step := StepAt(table, src, k, target);
    var rest := SourceSteps(table, src, k + 1, target);
    assert SourceSteps(table, src, k, target) == step + rest;
    assert src[k].name != src[b].name;
    if a > k {
      assert src[k].name != src[a].name;
      StepsOrder(table, src, k + 1, target, a, b);
      OthersThenBefore(step, rest, src[a].name, src[b].name);
    } else {
      StepColumns(table, src, k + 1, target);
      forall s: Stmt | s in rest
        ensures s.Subject() != src[k].name
      {
        var i :| k + 1 <= i < |src| && s.column == src[i] && s.position == SourcePosition(src, i);
      }
      FirstThenSecond(step, rest, src[a].name, src[b].name);
    }
  }

  /** Within `r`, every statement about `x` comes before every statement about `y`. */
  predicate Before(r: seq<Stmt>, x: string, y: string)
  {
    forall j, m | 0 <= j < |r| && 0 <= m < |r| && r[j].Subject() == x && r[m].Subject() == y :: j < m
  }

  lemma OthersThenBefore(a: seq<Stmt>, b: seq<Stmt>, x: string, y: string)
    requires forall s <- a :: s.Subject() != x && s.Subject() != y
    requires Before(b, x, y)
    ensures Before(a + b, x, y)
  {
    var r := a + b;
    forall j | 0 <= j < |a|
      ensures r[j] == a[j] && a[j] in a
    {
    }
    forall j | |a| <= j < |r|
      ensures r[j] == b[j - |a|]
    {
    }
  }

  lemma BeforeThenOthers(a: seq<Stmt>, b: seq<Stmt>, x: string, y: string)
    requires Before(a, x, y)
    requires forall s <- b :: s.Subject() != x && s.Subject() != y
    ensures Before(a + b, x, y)
  {
    var r := a + b;
    forall j | 0 <= j < |a|
      ensures r[j] == a[j]
    {
    }
    forall j | |a| <= j < |r|
      ensures r[j] == b[j - |a|] && b[j - |a|] in b
    {
    }
  }

  lemma FirstThenSecond(a: seq<Stmt>, b: seq<Stmt>, x: string, y: string)
    requires forall s <- a :: s.Subject() != y
    requires forall s <- b :: s.Subject() != x
    ensures Before(a + b, x, y)
  {
    var r := a + b;
    forall j | 0 <= j < |a|
      ensures r[j] == a[j] && a[j] in a
    {
    }
    forall j | |a| <= j < |r|
      ensures r[j] == b[j - |a|] && b[j - |a|] in b
    {
    }
  }

  /** The DROP pass keeps target order: it maps a concatenation of target
      columns to the concatenation of the drops. */
  lemma {:induction false} DropPassAppend(table: string, t1: seq<Column>, t2: seq<Column>, names: set<string>)
    ensures DropPass(table, t1 + t2, names) == DropPass(table, t1, names) + DropPass(table, t2, names)
    decreases |t1|
  {
    if t1 == [] {
      assert t1 + t2 == t2;
    } else {
      assert (t1 + t2)[1..] == t1[1..] + t2;
      DropPassAppend(table, t1[1..], t2, names);
    }
  }

  /** One iteration's statements are all about its own column. */
  lemma AboutStep(table: string, src: seq<Column>, k: nat, target: seq<Column>, n: string)
    requires k < |src|
    ensures About(StepAt(table, src, k, target), n)
         == if src[k].name == n then StepAt(table, src, k, target) else []
  {
    var step := StepAt(table, src, k, target);
    if src[k].name == n {
      AboutAll(step, n);
    } else {
      AboutNone(step, n);
    }
  }

  /** An iteration about another column leaves the statements about `n` as the
      later iterations have them. */
  lemma AboutStepsOther(table: string, src: seq<Column>, k: nat, target: seq<Column>, n: string)
    requires k < |src|
    requires src[k].name != n
    ensures About(SourceSteps(table, src, k, target), n) == About(SourceSteps(table, src, k + 1, target), n)
  {
    var step := StepAt(table, src, k, target);
    var rest := SourceSteps(table, src, k + 1, target);
    assert SourceSteps(table, src, k, target) == step + rest;
    AboutAppend(step, rest, n);
    AboutStep(table, src, k, target, n);
  }

  /** The iteration of column k, when no later iteration is about its name,
      holds all the statements about it. */
  lemma AboutStepsOwn(table: string, src: seq<Column>, k: nat, target: seq<Column>)
    requires k < |src|
    requires About(SourceSteps(table, src, k + 1, target), src[k].name) == []
    ensures About(SourceSteps(table, src, k, target), src[k].name) == StepAt(table, src, k, target)
  {
    var n := src[k].name;
    var step := StepAt(table, src, k, target);
    var rest := SourceSteps(table, src, k + 1, target);
    assert SourceSteps(table, src, k, target) == step + rest;
    AboutAppend(step, rest, n);
    AboutStep(table, src, k, target, n);
    assert About(step, n) + [] == step;
  }

  /** Iterations from k on say nothing about a name none of their columns has. */
  lemma {:induction false} AboutStepsAbsent(table: string, src: seq<Column>, k: nat, target: seq<Column>, n: string)
    requires k <= |src|
    requires forall j :: k <= j < |src| ==> src[j].name != n
    ensures About(SourceSteps(table, src, k, target), n) == []
    decreases |src| - k
  {
    if k < |src| {
      AboutStepsAbsent(table, src, k + 1, target, n);
      AboutStepsOther(table, src, k, target, n);
    } else {
      assert SourceSteps(table, src, k, target) == [];
    }
  }

  /** Iterations before column i that are about other columns leave the
      statements about column i as they are from iteration i on. */
  lemma {:induction false} AboutStepsUpTo(table: string, src: seq<Column>, k: nat, target: seq<Column>, i: nat)
    requires k <= i < |src|
    requires forall j :: k <= j < i ==> src[j].name != src[i].name
    ensures About(SourceSteps(table, src, k, target), src[i].name)
         == About(SourceSteps(table, src, i, target), src[i].name)
    decreases i - k
  {
    if k < i {
      var n := src[i].name;
      AboutStepsUpTo(table, src, k + 1, target, i);
      AboutStepsOther(table, src, k, target, n);
    }
  }

  /** The DROP pass says nothing about a name the source has. */
  lemma AboutDropOfSourceName(table: string, target: seq<Column>, names: set<string>, n: string)
    requires n in names
    ensures About(DropPass(table, target, names), n) == []
  {
    AboutNone(DropPass(table, target, names), n);
  }

  /** Nothing is dropped when every target name is a source name. */
  lemma {:induction false} DropPassNothing(table: string, target: seq<Column>, names: set<string>)
    requires forall c <- target :: c.name in names
    ensures DropPass(table, target, names) == []
  {
    if target != [] {
      assert forall c <- target[1..] :: c in target;
      DropPassNothing(table, target[1..], names);
    }
  }

  /** The DROP pass says nothing about a name no target column has. */
  lemma {:induction false} AboutDropOfAbsentName(table: string, target: seq<Column>, names: set<string>, n: string)
    requires forall c <- target :: c.name != n
    ensures About(DropPass(table, target, names), n) == []
  {
    if target != [] {
      var head := if target[0].name in names then [] else [DropColumn(table, target[0].name)];
      var rest := DropPass(table, target[1..], names);
      assert DropPass(table, target, names) == head + rest;
      AboutAppend(head, rest, n);
      assert forall c <- target[1..] :: c in target;
      AboutDropOfAbsentName(table, target[1..], names, n);
    }
  }

  /** With distinct target names, a target column whose name is not a source
      name gets exactly one DROP. */
  lemma {:induction false} AboutDropOfTargetColumn(table: string, target: seq<Column>, names: set<string>, j: nat)
    requires DistinctColumnNames(target)
    requires j < |target|
    requires target[j].name !in names
    ensures About(DropPass(table, target, names), target[j].name) == [DropColumn(table, target[j].name)]
    decreases |target|
  {
    var n := target[j].name;
    var tail := target[1..];
    var head := if target[0].name in names then [] else [DropColumn(table, target[0].name)];
    var rest := DropPass(table, tail, names);
    assert DropPass(table, target, names) == head + rest;
    AboutAppend(head, rest, n);
    DistinctColumnNamesTail(target);
    if j == 0 {
      AboutDropOfAbsentName(table, tail, names, n);
    } else {
      assert tail[j - 1] == target[j];
      AboutDropOfTargetColumn(table, tail, names, j - 1);
    }
  }

  /** Per source column, in a table whose source columns have distinct names:
      a column missing from the target gets exactly one ADD at its source
      position; one present but not matching gets exactly one MODIFY at its
      source position; a matching one gets no statement at all. */
  lemma SourceColumnStatements(table: string, src: seq<Column>, target: seq<Column>, i: nat)
    requires DistinctColumnNames(src)
    requires i < |src|
    ensures var about := About(ColumnSql(table, src, target), src[i].name);
      match FindColumn(target, src[i].name)
      case None => about == [AddColumn(table, src[i], SourcePosition(src, i))]
      case Some(t) =>
        if ColumnsMatch(src[i], t) then about == []
        else about == [ModifyColumn(table, src[i], SourcePosition(src, i))]
  {
    var n := src[i].name;
    FirstLoop(table, src, target);
    AboutAppend(SourceSteps(table, src, 0, target), DropPass(table, target, ColumnNames(src)), n);
    assert forall j :: 0 <= j < i ==> src[j].name != n;
    assert forall j :: i < j < |src| ==> src[j].name != n;
    AboutStepsUpTo(table, src, 0, target, i);
    AboutStepsAbsent(table, src, i + 1, target, n);
    AboutStepsOwn(table, src, i, target);
    assert n in ColumnNames(src) by { assert src[i] in src; }
    AboutDropOfSourceName(table, target, ColumnNames(src), n);
  }

  /** A target column whose name the source lacks gets exactly one DROP and no
      ADD or MODIFY, when the target's column names are distinct. */
  lemma TargetOnlyColumnStatements(table: string, src: seq<Column>, target: seq<Column>, j: nat)
    requires DistinctColumnNames(target)
    requires j < |target|
    requires target[j].name !in ColumnNames(src)
    ensures About(ColumnSql(table, src, target), target[j].name) == [DropColumn(table, target[j].name)]
  {
    var n := target[j].name;
    var am := AddModifyFrom(table, src, 0, None, target);
    AboutAppend(am, DropPass(table, target, ColumnNames(src)), n);
    assert forall s <- am :: s.Subject() != n;
    AboutNone(am, n);
    AboutDropOfTargetColumn(table, target, ColumnNames(src), j);
  }

  /** A name that neither list has gets no statement at all. */
  lemma UnknownColumnStatements(table: string, src: seq<Column>, target: seq<Column>, n: string)
    requires n !in ColumnNames(src) && n !in ColumnNames(target)
    ensures About(ColumnSql(table, src, target), n) == []
  {
    var am := AddModifyFrom(table, src, 0, None, target);
    var dp := DropPass(table, target, ColumnNames(src));
    AboutAppend(am, dp, n);
    assert forall s <- am :: s.Subject() != n;
    AboutNone(am, n);
    assert forall s <- dp :: s.Subject() != n;
    AboutNone(dp, n);
  }

  /** A column is found in its own list under its own name, and matches itself. */
  lemma StepAtAgainstItself(table: string, cols: seq<Column>, k: nat)
    requires DistinctColumnNames(cols)
    requires k < |cols|
    ensures StepAt(table, cols, k, cols) == []
  {
    assert forall j :: k < j < |cols| ==> cols[j].name != cols[k].name;
    FindColumnAt(cols, k);
  }

  lemma {:induction false} StepsAgainstItself(table: string, cols: seq<Column>, k: nat)
    requires DistinctColumnNames(cols)
    requires k <= |cols|
    ensures SourceSteps(table, cols, k, cols) == []
    decreases |cols| - k
  {
    if k < |cols| {
      StepAtAgainstItself(table, cols, k);
      StepsAgainstItself(table, cols, k + 1);
      assert SourceSteps(table, cols, k, cols) == [] + [];
    }
  }

  /** Diffing a column list against itself yields no statement: every column is
      found under its own name and matches itself, and no name is target-only. */
  lemma ColumnSqlAgainstItself(table: string, cols: seq<Column>)
    requires DistinctColumnNames(cols)
    ensures ColumnSql(table, cols, cols) == []
  {
    FirstLoop(table, cols, cols);
    StepsAgainstItself(table, cols, 0);
    DropPassNothing(table, cols, ColumnNames(cols));
  }
}

=== FILE: ddl.dfy ===
/** The DDL the engine emits, as structured statements, and their rendering to
    the exact MariaDB text db_sync.py builds with f-strings. */
module Ddl {
  import opened Base
  import opened Text
  import opened Schema

  /** Where ADD/MODIFY COLUMN places a column. */
  datatype Position = First | After(column: string)

  /** One ALTER TABLE statement of a per-table diff. */
  datatype Stmt =
    | AddColumn(table: string, column: Column, position: Position)
    | ModifyColumn(table: string, column: Column, position: Position)
    | DropColumn(table: string, name: string)
    | DropIndex(table: string, name: string)
    | AddIndex(table: string, name: string, index: Index)
    | DropForeignKey(table: string, name: string)
    | AddForeignKey(table: string, name: string, foreignKey: ForeignKey)
  {
    /** The column, index or constraint the statement is about. */
    function Subject(): string
    {
      match this
      case AddColumn(_, c, _) => c.name
      case ModifyColumn(_, c, _) => c.name
      case DropColumn(_, n) => n
      case DropIndex(_, n) => n
      case AddIndex(_, n, _) => n
      case DropForeignKey(_, n) => n
      case AddForeignKey(_, n, _) => n
    }

    predicate IsColumnStmt()
    {
      AddColumn? || ModifyColumn? || DropColumn?
    }

    predicate IsIndexStmt()
    {
      DropIndex? || AddIndex?
    }

    predicate IsForeignKeyStmt()
    {
      DropForeignKey? || AddForeignKey?
    }

    /** Columns come first, then indexes, then foreign keys. */
    function Kind(): nat
    {
      if IsColumnStmt() then 0 else if IsIndexStmt() then 1 else 2
    }

    /** The statement creates its column, index or constraint. */
    predicate IsAdd()
    {
      AddColumn? || AddIndex? || AddForeignKey?
    }
  }

  /** An identifier in backticks. */
  function Quote(id: string): string
  {
    "`" + id + "`"
  }

  /** " NULL" exactly when IS_NULLABLE is the text 'YES'; " NOT NULL" for every
      other value. */
  function NullClause(isNullable: string): (r: string)
    ensures r == " NULL" <==> isNullable == "YES"
    ensures r != " NULL" ==> r == " NOT NULL"
  {
    if isNullable == "YES" then " NULL" else " NOT NULL"
  }

  /** A string default written bare, as a keyword, rather than as quoted text:
      case-insensitively NULL or CURRENT_TIMESTAMP. */
  predicate IsKeywordDefault(s: string)
  {
    AsciiUpper(s) == "NULL" || AsciiUpper(s) == "CURRENT_TIMESTAMP"
  }

  /** A single-quoted SQL literal with no quote inside the delimiters. */
  predicate IsQuoteFreeLiteral(v: string)
  {
    |v| >= 2 && v[0] == '\'' && v[|v| - 1] == '\'' && '\'' !in v[1..|v| - 1]
  }

  /** The DEFAULT clause of a column definition. There is none for an absent
      default; keyword strings are written bare in upper case; any other
      string becomes a quoted literal with no quote character inside it; a
      number is written as a numeric literal that reads back as that number. */
  function DefaultClause(d: Default): (r: string)
    ensures r == "" <==> d.Absent?
    ensures r != "" ==> |r| > 9 && r[..9] == " DEFAULT "
    ensures d.Str? && AsciiUpper(d.text) == "NULL" ==> r == " DEFAULT NULL"
    ensures d.Str? && AsciiUpper(d.text) == "CURRENT_TIMESTAMP" ==> r == " DEFAULT CURRENT_TIMESTAMP"
    ensures d.Str? && !IsKeywordDefault(d.text) ==> IsQuoteFreeLiteral(r[9..])
    ensures d.Num? ==> ParseInt(r[9..]) == Some(d.value)
  {
    match d
    case Absent => ""
    case Str(s) =>
      if AsciiUpper(s) == "NULL" then " DEFAULT NULL"
      else if AsciiUpper(s) == "CURRENT_TIMESTAMP" then " DEFAULT CURRENT_TIMESTAMP"
      else
        var inner := RemoveAll(s, '\'');
        var r := " DEFAULT '" + inner + "'";
        assert r[9..][1..|r[9..]| - 1] == inner;
        r
    case Num(n) =>
      var r := " DEFAULT " + IntToString(n);
      assert r[9..] == IntToString(n);
      IntToStringRoundTrip(n);
      r
  }

  /** A reader for the DEFAULT clauses `DefaultClause` writes, the partner it
      is checked against: no clause is an absent default, a bare keyword is
      that keyword's text, a quoted literal is its text, a numeral is its
      number. It is this model's own reader, not the server's: a bare NULL
      reads back as the text "NULL". */
  function DecodeDefaultClause(r: string): Option<Default>
  {
    if r == "" then Some(Absent)
    else if |r| > 9 && r[..9] == " DEFAULT " then
      var v := r[9..];
      if v == "NULL" || v == "CURRENT_TIMESTAMP" then Some(Str(v))
      else if IsQuoteFreeLiteral(v) then Some(Str(v[1..|v| - 1]))
      else match ParseInt(v)
        case Some(n) => Some(Num(n))
        case None => None
    else None
  }

  /** The default as the written clause carries it: keywords upper-cased,
      quotes removed from text, anything else unchanged. */
  function AppliedDefault(d: Default): Default
  {
    match d
    case Str(s) =>
      if IsKeywordDefault(s) then Str(AsciiUpper(s)) else Str(RemoveAll(s, '\''))
    case _ => d
  }

  lemma QuotedTextRoundTrip(s: string)
    requires !IsKeywordDefault(s)
    ensures DecodeDefaultClause(DefaultClause(Str(s))) == Some(Str(RemoveAll(s, '\'')))
  {
    var inner := RemoveAll(s, '\'');
    var r := " DEFAULT '" + inner + "'";
    assert DefaultClause(Str(s)) == r;
    var v := r[9..];
    assert v == "'" + inner + "'";
    assert v[0] == '\'' && "NULL"[0] == 'N' && "CURRENT_TIMESTAMP"[0] == 'C';
    assert v[1..|v| - 1] == inner;
  }

  lemma KeywordRoundTrip(s: string)
    requires IsKeywordDefault(s)
    ensures DecodeDefaultClause(DefaultClause(Str(s))) == Some(Str(AsciiUpper(s)))
  {
    var r := DefaultClause(Str(s));
    assert r[..9] == " DEFAULT ";
    assert r[9..] == AsciiUpper(s);
  }

  lemma NumberRoundTrip(n: int)
    ensures DecodeDefaultClause(DefaultClause(Num(n))) == Some(Num(n))
  {
    var r := DefaultClause(Num(n));
    var v := r[9..];
    assert v == IntToString(n);
    assert v[0] == '-' || IsDigit(v[0]);
    assert "NULL"[0] == 'N' && "CURRENT_TIMESTAMP"[0] == 'C';
    assert !IsQuoteFreeLiteral(v);
  }

  /** Reading the written clause back gives `AppliedDefault(d)`. */
  lemma DefaultClauseRoundTrip(d: Default)
    ensures DecodeDefaultClause(DefaultClause(d)) == Some(AppliedDefault(d))
  {
    match d
    case Absent =>
    case Num(n) => NumberRoundTrip(n);
    case Str(s) =>
      if IsKeywordDefault(s) {
        KeywordRoundTrip(s);
      } else {
        QuotedTextRoundTrip(s);
      }
  }

  /** The rendered clause preserves the default exactly when the default is
      absent, a number, a keyword already in upper case, or text without a
      single quote. A text default such as O'Brien is rendered as 'OBrien'. */
  lemma AppliedDefaultFaithful(d: Default)
    ensures AppliedDefault(d) == d <==>
      (d.Str? ==> (if IsKeywordDefault(d.text) then AsciiUpper(d.text) == d.text
                   else '\'' !in d.text))
  {
  }

  /** The EXTRA modifier, written after a space when it is non-empty. */
  function ExtraClause(extra: string): (r: string)
    ensures r == "" <==> extra == ""
    ensures r != "" ==> r == " " + extra
  {
    if extra == "" then "" else " " + extra
  }

  /** A column definition as ADD/MODIFY COLUMN carries it: the quoted name and the
      type, then the nullability, default and extra clauses, in that order. */
  function ColumnDefinition(c: Column): (r: string)
    ensures var head := Quote(c.name) + " " + c.columnType + NullClause(c.isNullable);
      var tail := ExtraClause(c.extra);
      && |head| + |tail| <= |r|
      && r[..|head|] == head
      && r[|r| - |tail|..] == tail
      && DecodeDefaultClause(r[|head|..|r| - |tail|]) == Some(AppliedDefault(c.default))
  {
    var head := Quote(c.name) + " " + c.columnType + NullClause(c.isNullable);
    var mid := DefaultClause(c.default);
    var tail := ExtraClause(c.extra);
    var r := head + mid + tail;
    assert r[..|head|] == head;
    assert r[|r| - |tail|..] == tail;
    assert r[|head|..|r| - |tail|] == mid;
    DefaultClauseRoundTrip(c.default);
    r
  }

  /** `"FIRST"`, or `AFTER` and the quoted column name. */
  function PositionClause(p: Position): (r: string)
    ensures r == "FIRST" <==> p.First?
    ensures p.After? ==> r == "AFTER " + Quote(p.column)
  {
    match p
    case First => "FIRST"
    case After(n) => "AFTER " + Quote(n)
  }

  /** Identifiers quoted one by one. */
  function QuoteAll(names: seq<string>): (r: seq<string>)
    ensures |r| == |names|
    ensures forall i :: 0 <= i < |names| ==> r[i] == Quote(names[i])
  {
    seq(|names|, i requires 0 <= i < |names| => Quote(names[i]))
  }

  /** The stripped members of a comma-separated list. */
  function TrimAll(parts: seq<string>): (r: seq<string>)
    ensures |r| == |parts|
    ensures forall i :: 0 <= i < |parts| ==> r[i] == Trim(parts[i])
  {
    seq(|parts|, i requires 0 <= i < |parts| => Trim(parts[i]))
  }

  /** Each member of a comma-joined column list, stripped and quoted, joined by
      ", ". `split` yields at least one member, so the list always opens and
      closes with a backtick, even for an empty column string. */
  function ColumnList(raw: string): (r: string)
    ensures |r| > 0 && r[0] == '`' && r[|r| - 1] == '`'
  {
    var names := TrimAll(Split(raw, ','));
    var quoted := QuoteAll(names);
    QuotedEnds(names);
    JoinEnds(quoted, ", ", '`');
    Join(quoted, ", ")
  }

  lemma QuotedEnds(names: seq<string>)
    ensures forall q <- QuoteAll(names) :: |q| > 0 && q[0] == '`' && q[|q| - 1] == '`'
  {
    var quoted := QuoteAll(names);
    forall i | 0 <= i < |quoted|
      ensures |quoted[i]| > 0 && quoted[i][0] == '`' && quoted[i][|quoted[i]| - 1] == '`'
    {
      assert quoted[i] == "`" + names[i] + "`";
    }
  }

  /** Stripping names that carry no surrounding whitespace leaves them unchanged. */
  lemma TrimAllNoop(names: seq<string>)
    requires forall n <- names :: n == [] || (!IsSpace(n[0]) && !IsSpace(n[|n| - 1]))
    ensures TrimAll(names) == names
  {
    forall i | 0 <= i < |names|
      ensures Trim(names[i]) == names[i]
    {
      TrimNoop(names[i]);
    }
  }

  /** For the text GROUP_CONCAT builds from column names (no comma, no
      surrounding whitespace), the rendered list quotes exactly those names,
      in the same order. */
  lemma ColumnListOfGroupConcat(names: seq<string>)
    requires |names| >= 1
    requires forall n <- names :: ',' !in n
    requires forall n <- names :: n == [] || (!IsSpace(n[0]) && !IsSpace(n[|n| - 1]))
    ensures ColumnList(Join(names, ",")) == Join(QuoteAll(names), ", ")
  {
    var raw := Join(names, ",");
    assert "," == [','];
    SplitJoinRoundTrip(names, ',');
    TrimAllNoop(names);
    assert ColumnList(raw) == Join(QuoteAll(TrimAll(Split(raw, ','))), ", ");
  }

  /** Twenty spaces: the indentation of the continuation lines of ADD CONSTRAINT. */
  const FkIndent := "                    "

  /** The first three lines of ADD CONSTRAINT after the verb: the name, the
      constrained columns (the line ends in a space) and the referenced table
      and columns. */
  function ConstraintTail(name: string, fk: ForeignKey): string
  {
    "CONSTRAINT " + Quote(name) + "\n"
      + FkIndent + "FOREIGN KEY (" + ColumnList(fk.columns) + ") \n"
      + FkIndent + "REFERENCES " + Quote(fk.referencedTable) + " (" + ColumnList(fk.referencedColumns) + ")"
  }

  /** The closing two lines of ADD CONSTRAINT, carrying the referential actions. */
  function RuleLines(fk: ForeignKey): string
  {
    "\n" + FkIndent + "ON UPDATE " + fk.updateRule + "\n" + FkIndent + "ON DELETE " + fk.deleteRule
  }

  /** What follows "ALTER TABLE `t` " in each statement, exactly as the
      f-strings of db_sync.py build it. */
  function StmtBody(s: Stmt): (r: string)
    ensures s.IsAdd() ==> |r| >= 4 && r[..4] == "ADD "
    ensures s.ModifyColumn? ==> |r| >= 7 && r[..7] == "MODIFY "
    ensures s.DropColumn? || s.DropIndex? || s.DropForeignKey? ==> |r| >= 5 && r[..5] == "DROP "
  {
    match s
    case AddColumn(_, c, p) =>
      Verb("ADD ", "COLUMN " + ColumnDefinition(c) + " " + PositionClause(p))
    case ModifyColumn(_, c, p) =>
      Verb("MODIFY ", "COLUMN " + ColumnDefinition(c) + " " + PositionClause(p))
    case DropColumn(_, n) =>
      Verb("DROP ", "COLUMN " + Quote(n))
    case DropIndex(_, n) =>
      Verb("DROP ", "INDEX " + Quote(n))
    case AddIndex(_, n, idx) =>
      Verb("ADD ", (if idx.isUnique then "UNIQUE" else "") + " INDEX " + Quote(n)
        + " (" + ColumnList(idx.columns) + ")")
    case DropForeignKey(_, n) =>
      Verb("DROP ", "FOREIGN KEY " + Quote(n))
    case AddForeignKey(_, n, fk) =>
      Verb("ADD ", ConstraintTail(n, fk) + RuleLines(fk))
  }

  /** A statement body: its verb, then the rest. */
  function Verb(verb: string, rest: string): (r: string)
    ensures |r| >= |verb| && r[..|verb|] == verb
  {
    verb + rest
  }

  /** The full text of a statement: every statement alters the table it names. */
  function RenderStmt(s: Stmt): (r: string)
    ensures var prefix := "ALTER TABLE " + Quote(s.table) + " ";
      |prefix| < |r| && r[..|prefix|] == prefix
  {
    var prefix := "ALTER TABLE " + Quote(s.table) + " ";
    var body := StmtBody(s);
    assert |body| > 0;
    assert (prefix + body)[..|prefix|] == prefix;
    prefix + body
  }

  /** The statements of `r` about the column, index or constraint `name`, in order. */
  function About(r: seq<Stmt>, name: string): (a: seq<Stmt>)
    ensures |a| <= |r|
  {
    if r == [] then []
    else (if r[0].Subject() == name then [r[0]] else []) + About(r[1..], name)
  }

  lemma {:induction false} AboutAppend(a: seq<Stmt>, b: seq<Stmt>, name: string)
    ensures About(a + b, name) == About(a, name) + About(b, name)
    decreases |a|
  {
    if a == [] {
      assert a + b == b;
    } else {
      var head := if a[0].Subject() == name then [a[0]] else [];
      assert (a + b)[0] == a[0];
      assert (a + b)[1..] == a[1..] + b;
      assert About(a + b, name) == head + About(a[1..] + b, name);
      AboutAppend(a[1..], b, name);
      assert About(a, name) == head + About(a[1..], name);
      assert head + (About(a[1..], name) + About(b, name)) == (head + About(a[1..], name)) + About(b, name);
    }
  }

  /** A sequence none of whose statements is about `name` has nothing about it. */
  lemma {:induction false} AboutNone(r: seq<Stmt>, name: string)
    requires forall s <- r :: s.Subject() != name
    ensures About(r, name) == []
  {
    if r != [] {
      assert forall s <- r[1..] :: s in r;
      AboutNone(r[1..], name);
    }
  }

  /** A sequence all of whose statements are about `name` is all about it. */
  lemma {:induction false} AboutAll(r: seq<Stmt>, name: string)
    requires forall s <- r :: s.Subject() == name
    ensures About(r, name) == r
  {
    if r != [] {
      assert forall s <- r[1..] :: s in r;
      AboutAll(r[1..], name);
      assert r == [r[0]] + r[1..];
    }
  }

  /** Two statements placed side by side stay side by side in any context. */
  lemma Adjacent(front: seq<Stmt>, a: seq<Stmt>, x: Stmt, y: Stmt, b: seq<Stmt>)
    ensures var r := front + (a + [x, y] + b);
      exists k :: 0 <= k < |r| - 1 && r[k] == x && r[k + 1] == y
  {
    var r := front + (a + [x, y] + b);
    assert r[|front| + |a|] == x && r[|front| + |a| + 1] == y;
  }

  /** In `a + b`, where `a` is only about names outside `names` and `b` only
      about names in it, every statement about a name outside `names` precedes
      every statement about a name in it. */
  lemma OutsideBeforeInside(a: seq<Stmt>, b: seq<Stmt>, names: set<string>)
    requires forall s <- a :: s.Subject() !in names
    requires forall s <- b :: s.Subject() in names
    ensures var r := a + b;
      forall j, k :: 0 <= j < |r| && 0 <= k < |r| && r[j].Subject() !in names && r[k].Subject() in names ==> j < k
  {
    var r := a + b;
    assert forall j | 0 <= j < |a| :: r[j] == a[j] && a[j] in a;
    assert forall k | |a| <= k < |r| :: r[k] == b[k - |a|] && b[k - |a|] in b;
  }
}

=== FILE: fk_diff.dfy ===
/** The foreign-key differ, `generate_fk_sql`: DROP FOREIGN KEY for every
    target-only constraint, then, in source order, ADD CONSTRAINT for a new
    constraint and DROP followed by ADD for one whose record changed in any
    way. No constraint name is reserved. */
module ForeignKeyDiff {
  import opened Base
  import opened Schema
  import opened Ddl

  /** The first loop, over the target-only constraint names in the order the
      set difference yields them. */
  function DropExtra(table: string, order: seq<string>): (r: seq<Stmt>)
    ensures |r| == |order|
    ensures forall s <- r :: s.DropForeignKey? && s.table == table && s.name in order
  {
    if order == [] then []
    else
      var rest := DropExtra(table, order[1..]);
      assert forall n <- order[1..] :: n in order;
      [DropForeignKey(table, order[0])] + rest
  }

  /** The body of the second loop for the source constraint `name`: the whole
      record is compared, so any difference in columns, referenced table or
      columns, or either rule forces a re-creation. */
  function ForeignKeyStep(table: string, name: string, sfk: ForeignKey, target: Dict<ForeignKey>): (r: seq<Stmt>)
    ensures forall s <- r :: s.IsForeignKeyStmt() && s.table == table && s.Subject() == name
  {
    match Get(target, name)
    case None => [AddForeignKey(table, name, sfk)]
    case Some(t) =>
      if t == sfk then [] else [DropForeignKey(table, name), AddForeignKey(table, name, sfk)]
  }

  /** The second loop, over the source constraints in insertion order. */
  function AddChanged(table: string, source: Dict<ForeignKey>, target: Dict<ForeignKey>): (r: seq<Stmt>)
    ensures forall s <- r :: s.IsForeignKeyStmt() && s.table == table
  {
    if source == [] then []
    else ForeignKeyStep(table, source[0].0, source[0].1, target) + AddChanged(table, source[1..], target)
  }

  /** `generate_fk_sql`. `dropOrder` is the order in which Python happens to
      iterate `set(target_fk) - set(source_fk)`: any enumeration of it. */
  function ForeignKeySql(table: string, source: Dict<ForeignKey>, target: Dict<ForeignKey>, dropOrder: seq<string>): (r: seq<Stmt>)
    requires IsEnumeration(dropOrder, Keys(target) - Keys(source))
    ensures forall s <- r :: s.IsForeignKeyStmt() && s.table == table
  {
    DropExtra(table, dropOrder) + AddChanged(table, source, target)
  }

  /** Every statement of the second loop is about a source constraint. */
  lemma {:induction false} AddChangedSubjects(table: string, source: Dict<ForeignKey>, target: Dict<ForeignKey>)
    ensures forall s <- AddChanged(table, source, target) :: s.Subject() in Keys(source)
  {
    if source != [] {
      AddChangedSubjects(table, source[1..], target);
      assert source[0] in source;
      assert forall e <- source[1..] :: e in source;
    }
  }

  /** Every target-only constraint is dropped before any source constraint is
      processed: each statement about a name the source lacks comes before
      every statement about a source constraint, and is the DROP of a target
      constraint. */
  lemma ForeignKeySqlOrder(table: string, source: Dict<ForeignKey>, target: Dict<ForeignKey>, dropOrder: seq<string>)
    requires IsEnumeration(dropOrder, Keys(target) - Keys(source))
    ensures var r := ForeignKeySql(table, source, target, dropOrder);
      forall j, k :: 0 <= j < |r| && 0 <= k < |r| && r[j].Subject() !in Keys(source) && r[k].Subject() in Keys(source) ==> j < k
    ensures forall s <- ForeignKeySql(table, source, target, dropOrder) ::
      s.Subject() !in Keys(source) ==> s.DropForeignKey? && s.Subject() in Keys(target)
  {
    var de := DropExtra(table, dropOrder);
    var ac := AddChanged(table, source, target);
    var r := de + ac;
    AddChangedSubjects(table, source, target);
    forall n | n in dropOrder
      ensures n in Keys(target) && n !in Keys(source)
    {
      assert n in multiset(dropOrder);
    }
    OutsideBeforeInside(de, ac, Keys(source));
  }

  /** The first loop says nothing about a name outside the drop order. */
  lemma {:induction false} AboutDropExtraAbsent(table: string, order: seq<string>, n: string)
    requires n !in order
    ensures About(DropExtra(table, order), n) == []
  {
    AboutNone(DropExtra(table, order), n);
  }

  /** A name listed once in the drop order is dropped exactly once. */
  lemma {:induction false} AboutDropExtraOnce(table: string, order: seq<string>, n: string)
    requires multiset(order)[n] == 1
    ensures About(DropExtra(table, order), n) == [DropForeignKey(table, n)]
  {
    var head := [DropForeignKey(table, order[0])];
    var rest := DropExtra(table, order[1..]);
    assert DropExtra(table, order) == head + rest;
    AboutAppend(head, rest, n);
    assert order == [order[0]] + order[1..];
    assert multiset(order) == multiset{order[0]} + multiset(order[1..]);
    if order[0] == n {
      assert n !in multiset(order[1..]);
      AboutDropExtraAbsent(table, order[1..], n);
    } else {
      AboutDropExtraOnce(table, order[1..], n);
    }
  }

  /** The second loop says nothing about a name no source entry has. */
  lemma {:induction false} AboutAddChangedAbsent(table: string, source: Dict<ForeignKey>, target: Dict<ForeignKey>, n: string)
    requires forall j :: 0 <= j < |source| ==> source[j].0 != n
    ensures About(AddChanged(table, source, target), n) == []
  {
    if source != [] {
      var step := ForeignKeyStep(table, source[0].0, source[0].1, target);
      var rest := AddChanged(table, source[1..], target);
      assert AddChanged(table, source, target) == step + rest;
      AboutAppend(step, rest, n);
      AboutNone(step, n);
      AboutAddChangedAbsent(table, source[1..], target, n);
    }
  }

  /** The statements of the second loop about the name of source entry i are
      exactly those of its own iteration, when no other entry has that name. */
  lemma {:induction false} AboutAddChanged(table: string, source: Dict<ForeignKey>, target: Dict<ForeignKey>, i: nat)
    requires i < |source|
    requires forall j :: 0 <= j < |source| && j != i ==> source[j].0 != source[i].0
    ensures About(AddChanged(table, source, target), source[i].0)
         == ForeignKeyStep(table, source[i].0, source[i].1, target)
  {
    var n := source[i].0;
    var step := ForeignKeyStep(table, source[0].0, source[0].1, target);
    var rest := AddChanged(table, source[1..], target);
    assert AddChanged(table, source, target) == step + rest;
    AboutAppend(step, rest, n);
    if i == 0 {
      AboutAll(step, n);
      AboutAddChangedAbsent(table, source[1..], target, n);
      assert step + [] == step;
    } else {
      AboutNone(step, n);
      assert source[1..][i - 1] == source[i];
      AboutAddChanged(table, source[1..], target, i - 1);
    }
  }

  /** Per source constraint, with distinct source names: a constraint new to
      the target gets exactly one ADD; one whose record differs in any field
      gets a DROP and then an ADD carrying the source record;
      an identical one gets nothing. */
  lemma SourceForeignKeyStatements(table: string, source: Dict<ForeignKey>, target: Dict<ForeignKey>, dropOrder: seq<string>, i: nat)
    requires IsEnumeration(dropOrder, Keys(target) - Keys(source))
    requires DistinctKeys(source)
    requires i < |source|
    ensures var n := source[i].0;
      var about := About(ForeignKeySql(table, source, target, dropOrder), n);
      match Get(target, n)
      case None => about == [AddForeignKey(table, n, source[i].1)]
      case Some(t) =>
        if t == source[i].1 then about == []
        else about == [DropForeignKey(table, n), AddForeignKey(table, n, source[i].1)]
  {
    var n := source[i].0;
    assert n in Keys(source) by { assert source[i] in source; }
    assert n !in multiset(dropOrder);
    AboutDropExtraAbsent(table, dropOrder, n);
    AboutAppend(DropExtra(table, dropOrder), AddChanged(table, source, target), n);
    assert forall j :: 0 <= j < |source| && j != i ==> source[j].0 != n;
    AboutAddChanged(table, source, target, i);
  }

  /** A changed constraint is dropped and re-added in two consecutive
      statements, with nothing in between. */
  lemma ChangedForeignKeyAdjacent(table: string, source: Dict<ForeignKey>, target: Dict<ForeignKey>,
                                  dropOrder: seq<string>, i: nat)
    requires IsEnumeration(dropOrder, Keys(target) - Keys(source))
    requires i < |source|
    requires Get(target, source[i].0).Some? && Get(target, source[i].0).value != source[i].1
    ensures var r := ForeignKeySql(table, source, target, dropOrder);
      exists k :: 0 <= k < |r| - 1
        && r[k] == DropForeignKey(table, source[i].0) && r[k + 1] == AddForeignKey(table, source[i].0, source[i].1)
  {
    var n := source[i].0;
    var pre, post := StepInside(table, source, target, i);
    var de := DropExtra(table, dropOrder);
    assert ForeignKeyStep(table, n, source[i].1, target) == [DropForeignKey(table, n), AddForeignKey(table, n, source[i].1)];
    assert ForeignKeySql(table, source, target, dropOrder) == de + AddChanged(table, source, target);
    Adjacent(de, pre, DropForeignKey(table, n), AddForeignKey(table, n, source[i].1), post);
  }

  /** The second loop's statements are the earlier iterations', then iteration
      i's own, then the later ones': one iteration's statements stay together. */
  lemma {:induction false} StepInside(table: string, source: Dict<ForeignKey>, target: Dict<ForeignKey>, i: nat)
    returns (pre: seq<Stmt>, post: seq<Stmt>)
    requires i < |source|
    ensures AddChanged(table, source, target) == pre + ForeignKeyStep(table, source[i].0, source[i].1, target) + post
  {
    var step := ForeignKeyStep(table, source[0].0, source[0].1, target);
    assert AddChanged(table, source, target) == step + AddChanged(table, source[1..], target);
    if i == 0 {
      pre, post := [], AddChanged(table, source[1..], target);
    } else {
      var p, q := StepInside(table, source[1..], target, i - 1);
      assert source[1..][i - 1] == source[i];
      pre, post := step + p, q;
    }
  }

  /** Every target-only constraint gets exactly one DROP FOREIGN KEY and no
      other statement, whatever its name. */
  lemma TargetOnlyForeignKeyStatements(table: string, source: Dict<ForeignKey>, target: Dict<ForeignKey>, dropOrder: seq<string>, n: string)
    requires IsEnumeration(dropOrder, Keys(target) - Keys(source))
    requires n in Keys(target) && n !in Keys(source)
    ensures About(ForeignKeySql(table, source, target, dropOrder), n) == [DropForeignKey(table, n)]
  {
    assert multiset(dropOrder)[n] == 1;
    AboutDropExtraOnce(table, dropOrder, n);
    assert forall j :: 0 <= j < |source| ==> source[j] in source;
    AboutAddChangedAbsent(table, source, target, n);
    AboutAppend(DropExtra(table, dropOrder), AddChanged(table, source, target), n);
  }

  lemma {:induction false} AddChangedAgainstItself(table: string, fks: Dict<ForeignKey>, k: nat)
    requires DistinctKeys(fks)
    requires k <= |fks|
    ensures AddChanged(table, fks[k..], fks) == []
    decreases |fks| - k
  {
    if k < |fks| {
      GetEntry(fks, k);
      assert fks[k..][1..] == fks[k + 1..];
      AddChangedAgainstItself(table, fks, k + 1);
    }
  }

  /** Diffing a constraint map against itself yields no statement. */
  lemma ForeignKeySqlAgainstItself(table: string, fks: Dict<ForeignKey>, dropOrder: seq<string>)
    requires DistinctKeys(fks)
    requires IsEnumeration(dropOrder, Keys(fks) - Keys(fks))
    ensures ForeignKeySql(table, fks, fks, dropOrder) == []
  {
    assert Keys(fks) - Keys(fks) == {};
    EnumerationOfEmpty(dropOrder);
    AddChangedAgainstItself(table, fks, 0);
    assert fks[0..] == fks;
  }

  /** The rendered ADD CONSTRAINT ends with the source's ON UPDATE and ON DELETE
      rules, each on its own indented line. */
  lemma AddConstraintCarriesRules(table: string, name: string, fk: ForeignKey)
    ensures var r := RenderStmt(AddForeignKey(table, name, fk));
      var tail := RuleLines(fk);
      |tail| <= |r| && r[|r| - |tail|..] == tail
  {
    var r := RenderStmt(AddForeignKey(table, name, fk));
    var tail := RuleLines(fk);
    var head := "ADD " + ConstraintTail(name, fk);
    assert StmtBody(AddForeignKey(table, name, fk)) == head + tail;
    assert r == ("ALTER TABLE " + Quote(table) + " " + head) + tail;
  }
}

=== FILE: index_diff.dfy ===
/** The index differ, `generate_index_sql`: DROP for every target-only index,
    then, in source order, ADD for a new index and DROP followed by ADD for a
    changed one. The primary key is never touched. */
module IndexDiff {
  import opened Base
  import opened Schema
  import opened Ddl

  /** The index name MariaDB reserves for the primary key. */
  const Primary := "PRIMARY"

  /** The first loop, over the target-only index names in the order the set
      difference yields them; `PRIMARY` is skipped. */
  function DropExtra(table: string, order: seq<string>): (r: seq<Stmt>)
    ensures forall s <- r :: s.DropIndex? && s.table == table && s.name != Primary && s.name in order
  {
    if order == [] then []
    else
      var rest := DropExtra(table, order[1..]);
      assert forall n <- order[1..] :: n in order;
      (if order[0] == Primary then [] else [DropIndex(table, order[0])]) + rest
  }

  /** The index is unchanged: same column string and same uniqueness. The
      column strings are compared as raw text, not as lists. */
  predicate SameIndex(a: Index, b: Index)
  {
    a.columns == b.columns && a.isUnique == b.isUnique
  }

  /** The body of the second loop for the source index `name`. */
  function IndexStep(table: string, name: string, sidx: Index, target: Dict<Index>): (r: seq<Stmt>)
    ensures forall s <- r :: s.IsIndexStmt() && s.table == table && s.Subject() == name
    ensures name == Primary ==> r == []
  {
    if name == Primary then []
    else match Get(target, name)
      case None => [AddIndex(table, name, sidx)]
      case Some(t) =>
        if SameIndex(t, sidx) then [] else [DropIndex(table, name), AddIndex(table, name, sidx)]
  }

  /** The second loop, over the source indexes in insertion order. */
  function AddChanged(table: string, source: Dict<Index>, target: Dict<Index>): (r: seq<Stmt>)
    ensures forall s <- r :: s.IsIndexStmt() && s.table == table && s.Subject() != Primary
  {
    if source == [] then []
    else IndexStep(table, source[0].0, source[0].1, target) + AddChanged(table, source[1..], target)
  }

  /** `generate_index_sql`. `dropOrder` is the order in which Python happens to
      iterate `set(target_idx) - set(source_idx)`: any enumeration of it. No
      statement ever names `PRIMARY`. */
  function IndexSql(table: string, source: Dict<Index>, target: Dict<Index>, dropOrder: seq<string>): (r: seq<Stmt>)
    requires IsEnumeration(dropOrder, Keys(target) - Keys(source))
    ensures forall s <- r :: s.IsIndexStmt() && s.table == table && s.Subject() != Primary
  {
    DropExtra(table, dropOrder) + AddChanged(table, source, target)
  }

  /** Every statement of the second loop is about a source index. */
  lemma {:induction false} AddChangedSubjects(table: string, source: Dict<Index>, target: Dict<Index>)
    ensures forall s <- AddChanged(table, source, target) :: s.Subject() in Keys(source)
  {
    if source != [] {
      AddChangedSubjects(table, source[1..], target);
      assert source[0] in source;
      assert forall e <- source[1..] :: e in source;
    }
  }

  /** Every target-only index is dropped before any source index is processed:
      each statement about a name the source lacks comes before every statement
      about a source index, and is the DROP of a target index. */
  lemma IndexSqlOrder(table: string, source: Dict<Index>, target: Dict<Index>, dropOrder: seq<string>)
    requires IsEnumeration(dropOrder, Keys(target) - Keys(source))
    ensures var r := IndexSql(table, source, target, dropOrder);
      forall j, k :: 0 <= j < |r| && 0 <= k < |r| && r[j].Subject() !in Keys(source) && r[k].Subject() in Keys(source) ==> j < k
    ensures forall s <- IndexSql(table, source, target, dropOrder) ::
      s.Subject() !in Keys(source) ==> s.DropIndex? && s.Subject() in Keys(target)
  {
    var de := DropExtra(table, dropOrder);
    var ac := AddChanged(table, source, target);
    var r := de + ac;
    AddChangedSubjects(table, source, target);
    forall n | n in dropOrder
      ensures n in Keys(target) && n !in Keys(source)
    {
      assert n in multiset(dropOrder);
    }
    OutsideBeforeInside(de, ac, Keys(source));
  }

  /** The first loop says nothing about a name outside the drop order. */
  lemma {:induction false} AboutDropExtraAbsent(table: string, order: seq<string>, n: string)
    requires n !in order
    ensures About(DropExtra(table, order), n) == []
  {
    AboutNone(DropExtra(table, order), n);
  }

  /** A name listed once in the drop order is dropped exactly once, unless it
      is `PRIMARY`. */
  lemma {:induction false} AboutDropExtraOnce(table: string, order: seq<string>, n: string)
    requires multiset(order)[n] == 1
    ensures About(DropExtra(table, order), n) == if n == Primary then [] else [DropIndex(table, n)]
  {
    var head := if order[0] == Primary then [] else [DropIndex(table, order[0])];
    var rest := DropExtra(table, order[1..]);
    assert DropExtra(table, order) == head + rest;
    AboutAppend(head, rest, n);
    assert order == [order[0]] + order[1..];
    assert multiset(order) == multiset{order[0]} + multiset(order[1..]);
    if order[0] == n {
      assert n !in multiset(order[1..]);
      AboutDropExtraAbsent(table, order[1..], n);
    } else {
      AboutDropExtraOnce(table, order[1..], n);
    }
  }

  /** The second loop says nothing about a name no source entry has. */
  lemma {:induction false} AboutAddChangedAbsent(table: string, source: Dict<Index>, target: Dict<Index>, n: string)
    requires forall j :: 0 <= j < |source| ==> source[j].0 != n
    ensures About(AddChanged(table, source, target), n) == []
  {
    if source != [] {
      var step := IndexStep(table, source[0].0, source[0].1, target);
      var rest := AddChanged(table, source[1..], target);
      assert AddChanged(table, source, target) == step + rest;
      AboutAppend(step, rest, n);
      AboutNone(step, n);
      AboutAddChangedAbsent(table, source[1..], target, n);
    }
  }

  /** The statements of the second loop about the name of source entry i are
      exactly those of its own iteration, when no other entry has that name. */
  lemma {:induction false} AboutAddChanged(table: string, source: Dict<Index>, target: Dict<Index>, i: nat)
    requires i < |source|
    requires forall j :: 0 <= j < |source| && j != i ==> source[j].0 != source[i].0
    ensures About(AddChanged(table, source, target), source[i].0)
         == IndexStep(table, source[i].0, source[i].1, target)
  {
    var n := source[i].0;
    var step := IndexStep(table, source[0].0, source[0].1, target);
    var rest := AddChanged(table, source[1..], target);
    assert AddChanged(table, source, target) == step + rest;
    AboutAppend(step, rest, n);
    if i == 0 {
      AboutAll(step, n);
      AboutAddChangedAbsent(table, source[1..], target, n);
      assert step + [] == step;
    } else {
      AboutNone(step, n);
      assert source[1..][i - 1] == source[i];
      AboutAddChanged(table, source[1..], target, i - 1);
    }
  }

  /** Per source index, with distinct source names: `PRIMARY` gets nothing; an
      index new to the target gets exactly one ADD; a changed one gets a DROP
      and then an ADD and nothing else; an unchanged one gets
      nothing. */
  lemma SourceIndexStatements(table: string, source: Dict<Index>, target: Dict<Index>, dropOrder: seq<string>, i: nat)
    requires IsEnumeration(dropOrder, Keys(target) - Keys(source))
    requires DistinctKeys(source)
    requires i < |source|
    ensures var n := source[i].0;
      var about := About(IndexSql(table, source, target, dropOrder), n);
      if n == Primary then about == []
      else match Get(target, n)
        case None => about == [AddIndex(table, n, source[i].1)]
        case Some(t) =>
          if SameIndex(t, source[i].1) then about == []
          else about == [DropIndex(table, n), AddIndex(table, n, source[i].1)]
  {
    var n := source[i].0;
    assert n in Keys(source) by { assert source[i] in source; }
    assert n !in multiset(dropOrder);
    AboutDropExtraAbsent(table, dropOrder, n);
    AboutAppend(DropExtra(table, dropOrder), AddChanged(table, source, target), n);
    assert forall j :: 0 <= j < |source| && j != i ==> source[j].0 != n;
    AboutAddChanged(table, source, target, i);
  }

  /** A changed index is dropped and re-added in two consecutive statements,
      with nothing in between. */
  lemma ChangedIndexAdjacent(table: string, source: Dict<Index>, target: Dict<Index>, dropOrder: seq<string>, i: nat)
    requires IsEnumeration(dropOrder, Keys(target) - Keys(source))
    requires i < |source|
    requires source[i].0 != Primary
    requires Get(target, source[i].0).Some? && !SameIndex(Get(target, source[i].0).value, source[i].1)
    ensures var r := IndexSql(table, source, target, dropOrder);
      exists k :: 0 <= k < |r| - 1
        && r[k] == DropIndex(table, source[i].0) && r[k + 1] == AddIndex(table, source[i].0, source[i].1)
  {
    var n := source[i].0;
    var pre, post := StepInside(table, source, target, i);
    var de := DropExtra(table, dropOrder);
    assert IndexStep(table, n, source[i].1, target) == [DropIndex(table, n), AddIndex(table, n, source[i].1)];
    assert IndexSql(table, source, target, dropOrder) == de + AddChanged(table, source, target);
    Adjacent(de, pre, DropIndex(table, n), AddIndex(table, n, source[i].1), post);
  }

  /** The second loop's statements are the earlier iterations', then iteration
      i's own, then the later ones': one iteration's statements stay together. */
  lemma {:induction false} StepInside(table: string, source: Dict<Index>, target: Dict<Index>, i: nat)
    returns (pre: seq<Stmt>, post: seq<Stmt>)
    requires i < |source|
    ensures AddChanged(table, source, target) == pre + IndexStep(table, source[i].0, source[i].1, target) + post
  {
    var step := IndexStep(table, source[0].0, source[0].1, target);
    assert AddChanged(table, source, target) == step + AddChanged(table, source[1..], target);
    if i == 0 {
      pre, post := [], AddChanged(table, source[1..], target);
    } else {
      var p, q := StepInside(table, source[1..], target, i - 1);
      assert source[1..][i - 1] == source[i];
      pre, post := step + p, q;
    }
  }

  /** Every target-only index other than `PRIMARY` gets exactly one DROP and no
      other statement. */
  lemma TargetOnlyIndexStatements(table: string, source: Dict<Index>, target: Dict<Index>, dropOrder: seq<string>, n: string)
    requires IsEnumeration(dropOrder, Keys(target) - Keys(source))
    requires n in Keys(target) && n !in Keys(source)
    requires n != Primary
    ensures About(IndexSql(table, source, target, dropOrder), n) == [DropIndex(table, n)]
  {
    assert multiset(dropOrder)[n] == 1;
    AboutDropExtraOnce(table, dropOrder, n);
    assert forall j :: 0 <= j < |source| ==> source[j] in source;
    AboutAddChangedAbsent(table, source, target, n);
    AboutAppend(DropExtra(table, dropOrder), AddChanged(table, source, target), n);
  }

  lemma {:induction false} AddChangedAgainstItself(table: string, idx: Dict<Index>, k: nat)
    requires DistinctKeys(idx)
    requires k <= |idx|
    ensures AddChanged(table, idx[k..], idx) == []
    decreases |idx| - k
  {
    if k < |idx| {
      GetEntry(idx, k);
      assert idx[k..][1..] == idx[k + 1..];
      AddChangedAgainstItself(table, idx, k + 1);
    }
  }

  /** Diffing an index map against itself yields no statement. The only drop
      order for an empty difference is the empty one. */
  lemma IndexSqlAgainstItself(table: string, idx: Dict<Index>, dropOrder: seq<string>)
    requires DistinctKeys(idx)
    requires IsEnumeration(dropOrder, Keys(idx) - Keys(idx))
    ensures IndexSql(table, idx, idx, dropOrder) == []
  {
    assert Keys(idx) - Keys(idx) == {};
    EnumerationOfEmpty(dropOrder);
    AddChangedAgainstItself(table, idx, 0);
    assert idx[0..] == idx;
  }
}

=== FILE: save.dfy ===
/** The line formatting of `save_sql_to_file`: each command is stripped, blank
    ones are skipped, a `;` is appended unless one is already there, and each
    is followed by a line break. The file itself is left out; the model yields
    the text that would be written. */
module Save {
  import opened Base
  import opened Text
  import opened Schema
  import opened Sync

  /** The one failure: saving before any command was generated. */
  datatype SaveError = NoCommandsGenerated

  /** One command as it is written: `None` when it is blank; otherwise its strip,
      ending in exactly the `;` it had or one added. */
  function FormatCommand(c: string): (r: Option<string>)
    ensures r.None? <==> AllSpace(c)
    ensures r.Some? ==> var t := Trim(c);
      && 0 < |t| <= |r.value| <= |t| + 1
      && r.value[..|t|] == t
      && (t[|t| - 1] == ';' <==> |r.value| == |t|)
      && r.value[|r.value| - 1] == ';'
  {
    var t := Trim(c);
    if t == [] then None
    else if t[|t| - 1] == ';' then Some(t)
    else Some(t + ";")
  }

  /** A written command is its own formatting: formatting is idempotent. */
  lemma FormatCommandIdempotent(c: string)
    requires FormatCommand(c).Some?
    ensures FormatCommand(FormatCommand(c).value) == FormatCommand(c)
  {
    var v := FormatCommand(c).value;
    var t := Trim(c);
    assert v[0] == t[0];
    TrimNoop(v);
  }

  /** The present results of `f` over `s`, in order: the shape of the save
      loop, which writes what each command formats to and skips the rest. */
  function FilterMap<T, U>(s: seq<T>, f: T -> Option<U>): (r: seq<U>)
    ensures |r| <= |s|
  {
    if s == [] then []
    else (match f(s[0]) case None => [] case Some(u) => [u]) + FilterMap(s[1..], f)
  }

  lemma FilterMapCons<T, U>(x: T, rest: seq<T>, f: T -> Option<U>)
    ensures FilterMap([x] + rest, f)
         == (match f(x) case None => [] case Some(u) => [u]) + FilterMap(rest, f)
  {
    assert ([x] + rest)[0] == x;
    assert ([x] + rest)[1..] == rest;
  }

  lemma {:induction false} FilterMapAppend<T, U>(a: seq<T>, b: seq<T>, f: T -> Option<U>)
    ensures FilterMap(a + b, f) == FilterMap(a, f) + FilterMap(b, f)
    decreases |a|
  {
    if a == [] {
      assert a + b == b;
    } else {
      var head := match f(a[0]) case None => [] case Some(u) => [u];
      assert a == [a[0]] + a[1..];
      assert a + b == [a[0]] + (a[1..] + b);
      FilterMapCons(a[0], a[1..] + b, f);
      FilterMapCons(a[0], a[1..], f);
      FilterMapAppend(a[1..], b, f);
      assert head + (FilterMap(a[1..], f) + FilterMap(b, f)) == (head + FilterMap(a[1..], f)) + FilterMap(b, f);
    }
  }

  lemma {:induction false} FilterMapIdempotent<T>(s: seq<T>, f: T -> Option<T>)
    requires forall x :: f(x).Some? ==> f(f(x).value) == f(x)
    ensures FilterMap(FilterMap(s, f), f) == FilterMap(s, f)
  {
    if s != [] {
      FilterMapIdempotent(s[1..], f);
      var rest := FilterMap(s[1..], f);
      assert s == [s[0]] + s[1..];
      FilterMapCons(s[0], s[1..], f);
      match f(s[0])
      case None =>
        assert FilterMap(s, f) == [] + rest == rest;
      case Some(e) =>
        FilterMapCons(e, rest, f);
    }
  }

  /** The non-blank commands, formatted, in order. */
  function Entries(cmds: seq<string>): seq<string>
  {
    FilterMap(cmds, FormatCommand)
  }

  /** Each entry followed by a line break. */
  function Lines(entries: seq<string>): string
  {
    if entries == [] then "" else entries[0] + "\n" + Lines(entries[1..])
  }

  /** `save_sql_to_file` up to the write: it fails exactly when no command was
      generated, and otherwise yields the lines of the non-blank commands. */
  function SaveText(cmds: seq<string>): (r: Result<string, SaveError>)
    ensures r.Err? <==> cmds == []
    ensures r.Ok? ==> r.value == Lines(Entries(cmds))
  {
    if cmds == [] then Err(NoCommandsGenerated) else Ok(Lines(Entries(cmds)))
  }

  /** The lines of a concatenation are the concatenated lines. */
  lemma {:induction false} LinesAppend(a: seq<string>, b: seq<string>)
    ensures Lines(a + b) == Lines(a) + Lines(b)
    decreases |a|
  {
    if a == [] {
      assert a + b == b;
    } else {
      assert (a + b)[1..] == a[1..] + b;
      LinesAppend(a[1..], b);
      assert a[0] + "\n" + (Lines(a[1..]) + Lines(b)) == (a[0] + "\n" + Lines(a[1..])) + Lines(b);
    }
  }

  /** One entry is written as itself followed by a line break. */
  lemma LinesOfOne(x: string)
    ensures Lines([x]) == x + "\n"
  {
    assert [x][1..] == [];
  }

  /** Saving one command writes nothing when it is blank, and otherwise its
      formatting followed by a line break. */
  lemma SaveTextOne(c: string)
    ensures SaveText([c]) == Ok(if AllSpace(c) then "" else FormatCommand(c).value + "\n")
  {
    FilterMapCons(c, [], FormatCommand);
    assert [c] + [] == [c];
    if !AllSpace(c) {
      LinesOfOne(FormatCommand(c).value);
    }
  }

  /** Commands are written independently: saving a concatenation of two
      non-empty lists writes what saving each writes, one after the other. */
  lemma SaveTextAppend(a: seq<string>, b: seq<string>)
    requires a != [] && b != []
    ensures SaveText(a + b).Ok? && SaveText(a).Ok? && SaveText(b).Ok?
    ensures SaveText(a + b).value == SaveText(a).value + SaveText(b).value
  {
    EntriesAppend(a, b);
    LinesAppend(Entries(a), Entries(b));
  }

  /** The commands that are not all whitespace, in order. */
  function NonBlank(cmds: seq<string>): (r: seq<string>)
    ensures |r| <= |cmds|
    ensures forall c <- r :: c in cmds && !AllSpace(c)
    ensures forall c <- cmds :: !AllSpace(c) ==> c in r
  {
    if cmds == [] then []
    else (if AllSpace(cmds[0]) then [] else [cmds[0]]) + NonBlank(cmds[1..])
  }

  /** There is one entry per command that is not all whitespace, and entry k
      is the formatting of the k-th such command. */
  lemma {:induction false} EntriesOfNonBlank(cmds: seq<string>)
    ensures |Entries(cmds)| == |NonBlank(cmds)|
    ensures forall k :: 0 <= k < |Entries(cmds)| ==>
      FormatCommand(NonBlank(cmds)[k]) == Some(Entries(cmds)[k])
  {
    if cmds != [] {
      EntriesOfNonBlank(cmds[1..]);
      assert cmds == [cmds[0]] + cmds[1..];
      FilterMapCons(cmds[0], cmds[1..], FormatCommand);
    }
  }

  /** The entries of a concatenation are the concatenated entries. */
  lemma EntriesAppend(a: seq<string>, b: seq<string>)
    ensures Entries(a + b) == Entries(a) + Entries(b)
  {
    FilterMapAppend(a, b, FormatCommand);
  }

  /** Saving the written entries again writes the same entries: every entry is
      non-blank, stripped and ends in `;`. */
  lemma EntriesIdempotent(cmds: seq<string>)
    ensures Entries(Entries(cmds)) == Entries(cmds)
  {
    forall c | FormatCommand(c).Some?
      ensures FormatCommand(FormatCommand(c).value) == FormatCommand(c)
    {
      FormatCommandIdempotent(c);
    }
    FilterMapIdempotent(cmds, FormatCommand);
  }

  /** A command without surrounding whitespace is written as it is, with a `;`
      added when it lacks one. */
  lemma CleanCommand(text: string)
    requires |text| > 0 && !IsSpace(text[0]) && !IsSpace(text[|text| - 1])
    ensures FormatCommand(text) == Some(if text[|text| - 1] == ';' then text else text + ";")
  {
    TrimNoop(text);
  }

  /** A command opening with a line break is formatted as if the break were not
      there, so no blank line is written before it. */
  lemma LineBreakDropped(text: string)
    ensures FormatCommand("\n" + text) == FormatCommand(text)
  {
    TrimSkipsLeadingSpace('\n', text);
    assert "\n" + text == ['\n'] + text;
  }

  /** The entries of one non-blank command are its formatting. */
  lemma EntriesOfOne(a: string)
    requires FormatCommand(a).Some?
    ensures Entries([a]) == [FormatCommand(a).value]
  {
    assert [a] == [a] + [];
    FilterMapCons(a, [], FormatCommand);
  }

  /** The banner is written with a `;` appended to it. */
  lemma BannerWritten()
    ensures FormatCommand("-- Database synchronization script") == Some("-- Database synchronization script;")
  {
    var a := "-- Database synchronization script";
    assert a[0] == '-' && a[|a| - 1] == 't';
    CleanCommand(a);
    assert a + ";" == "-- Database synchronization script;";
  }

  /** The switch that disables foreign key checks is written as it is. */
  lemma ChecksOffWritten()
    ensures FormatCommand("SET FOREIGN_KEY_CHECKS = 0;") == Some("SET FOREIGN_KEY_CHECKS = 0;")
  {
    var b := "SET FOREIGN_KEY_CHECKS = 0;";
    assert b[0] == 'S' && b[|b| - 1] == ';';
    CleanCommand(b);
  }

  /** The switch that enables them again loses its leading line break. */
  lemma ChecksOnWritten()
    ensures FormatCommand("\nSET FOREIGN_KEY_CHECKS = 1;") == Some("SET FOREIGN_KEY_CHECKS = 1;")
  {
    var c := "SET FOREIGN_KEY_CHECKS = 1;";
    assert c[0] == 'S' && c[|c| - 1] == ';';
    BrokenCleanCommand("\nSET FOREIGN_KEY_CHECKS = 1;", c);
  }

  /** A complete command after a line break is written without the break. */
  lemma BrokenCleanCommand(s: string, text: string)
    requires s == "\n" + text
    requires |text| > 0 && !IsSpace(text[0]) && text[|text| - 1] == ';'
    ensures FormatCommand(s) == Some(text)
  {
    CleanCommand(text);
    LineBreakDropped(text);
  }

  /** Two non-blank opening commands are the first two entries. */
  lemma EntriesHead(r: seq<string>, x: string, y: string)
    requires |r| >= 2
    requires FormatCommand(r[0]) == Some(x) && FormatCommand(r[1]) == Some(y)
    ensures var e := Entries(r); |e| >= 2 && e[0] == x && e[1] == y
  {
    assert r == [r[0]] + r[1..];
    FilterMapCons(r[0], r[1..], FormatCommand);
    assert r[1..] == [r[1]] + r[2..];
    FilterMapCons(r[1], r[2..], FormatCommand);
  }

  /** A non-blank closing command is the last entry. */
  lemma EntriesLast(r: seq<string>, z: string)
    requires |r| >= 1
    requires FormatCommand(r[|r| - 1]) == Some(z)
    ensures var e := Entries(r); |e| == |Entries(r[..|r| - 1])| + 1 && e[|e| - 1] == z
  {
    assert r == r[..|r| - 1] + [r[|r| - 1]];
    EntriesAppend(r[..|r| - 1], [r[|r| - 1]]);
    EntriesOfOne(r[|r| - 1]);
  }

  /** Generic form of the framing: given how the first two and the last
      command are written, so are the first two and the last entries. */
  lemma FramedEntries(r: seq<string>, x: string, y: string, z: string)
    requires |r| >= 3
    requires FormatCommand(r[0]) == Some(x) && FormatCommand(r[1]) == Some(y)
    requires FormatCommand(r[|r| - 1]) == Some(z)
    ensures var e := Entries(r);
      |e| >= 3 && e[0] == x && e[1] == y && e[|e| - 1] == z
  {
    var front := r[..|r| - 1];
    EntriesHead(front, x, y);
    EntriesLast(r, z);
    assert r == front + [r[|r| - 1]];
    EntriesAppend(front, [r[|r| - 1]]);
  }

  /** The saved sync script's first two entries are the banner and the switch
      that disables foreign key checks, and its last entry enables them again,
      its leading line break stripped. */
  lemma SavedScriptFraming(source: Database, target: Database, o: Orders)
    requires ValidOrders(source, target, o)
    ensures var e := Entries(SyncSql(source, target, o));
      |e| >= 3
      && e[0] == "-- Database synchronization script;"
      && e[1] == "SET FOREIGN_KEY_CHECKS = 0;"
      && e[|e| - 1] == "SET FOREIGN_KEY_CHECKS = 1;"
  {
    SyncSqlFraming(source, target, o);
    SavedFraming(SyncSql(source, target, o));
  }

  /** Commands framed as the sync script frames them are saved framed. */
  lemma SavedFraming(r: seq<string>)
    requires |r| >= 3
    requires r[0] == "-- Database synchronization script"
    requires r[1] == "SET FOREIGN_KEY_CHECKS = 0;"
    requires r[|r| - 1] == "\nSET FOREIGN_KEY_CHECKS = 1;"
    ensures var e := Entries(r);
      |e| >= 3
      && e[0] == "-- Database synchronization script;"
      && e[1] == "SET FOREIGN_KEY_CHECKS = 0;"
      && e[|e| - 1] == "SET FOREIGN_KEY_CHECKS = 1;"
  {
    BannerWritten();
    ChecksOffWritten();
    ChecksOnWritten();
    FramedEntries(r, "-- Database synchronization script;",
      "SET FOREIGN_KEY_CHECKS = 0;", "SET FOREIGN_KEY_CHECKS = 1;");
  }

  /** Saving the sync script of a database against itself writes exactly three
      lines: the banner, and the two foreign key switches. */
  lemma SavedSelfSync(db: Database, o: Orders)
    requires WellFormed(db)
    requires ValidOrders(db, db, o)
    ensures SaveText(SyncSql(db, db, o))
         == Ok("-- Database synchronization script;" + "\n" + "SET FOREIGN_KEY_CHECKS = 0;" + "\n"
               + "SET FOREIGN_KEY_CHECKS = 1;" + "\n")
  {
    SelfSyncLength(db, o);
    SavedScriptFraming(db, db, o);
    ThreeLines(SyncSql(db, db, o), "-- Database synchronization script;",
      "SET FOREIGN_KEY_CHECKS = 0;", "SET FOREIGN_KEY_CHECKS = 1;");
  }

  /** A database synchronized with itself yields three commands. */
  lemma SelfSyncLength(db: Database, o: Orders)
    requires WellFormed(db)
    requires ValidOrders(db, db, o)
    ensures |SyncSql(db, db, o)| == 3
  {
    SyncAgainstItself(db, o);
  }

  /** Three commands whose entries are framed by x, y and z are saved as
      exactly those three lines. */
  lemma ThreeLines(r: seq<string>, x: string, y: string, z: string)
    requires |r| == 3
    requires var e := Entries(r); |e| >= 3 && e[0] == x && e[1] == y && e[|e| - 1] == z
    ensures SaveText(r) == Ok(x + "\n" + y + "\n" + z + "\n")
  {
    var e := Entries(r);
    assert |e| == 3;
    assert e[1..][0] == y && e[2..][0] == z && e[3..] == [];
    assert Lines(e[2..]) == z + "\n" + "";
    assert Lines(e[1..]) == y + "\n" + Lines(e[2..]);
    assert Lines(e) == x + "\n" + Lines(e[1..]);
    assert x + "\n" + (y + "\n" + (z + "\n" + "")) == x + "\n" + y + "\n" + z + "\n";
  }
}

=== FILE: schema.dfy ===
/** The structural snapshot the diff engine works on: what the catalog queries of
    db_sync.py return for one table, as immutable records. */
module Schema {
  import opened Base

  /** COLUMN_DEFAULT as the driver hands it over: SQL NULL (Python `None`), a
      string, or a number. */
  datatype Default = Absent | Str(text: string) | Num(value: int)

  /** One row of information_schema.COLUMNS. IS_NULLABLE is kept as the text the
      catalog returns ('YES' / 'NO'). */
  datatype Column = Column(
    name: string,
    columnType: string,
    isNullable: string,
    default: Default,
    extra: string)

  /** One row of the index query. `columns` is the raw GROUP_CONCAT text, member
      names joined by ',' in SEQ_IN_INDEX order. */
  datatype Index = Index(columns: string, isUnique: bool)

  /** One row of the foreign-key query; both column lists are raw GROUP_CONCAT text. */
  datatype ForeignKey = ForeignKey(
    columns: string,
    referencedTable: string,
    referencedColumns: string,
    updateRule: string,
    deleteRule: string)

  /** A Python dict keyed by name, given as its entries in insertion order. */
  type Dict<V> = seq<(string, V)>

  function Keys<V(==)>(d: Dict<V>): set<string>
  {
    set e | e in d :: e.0
  }

  /** Every dict the catalog queries build has one entry per name. */
  predicate DistinctKeys<V>(d: Dict<V>)
  {
    forall i, j :: 0 <= i < j < |d| ==> d[i].0 != d[j].0
  }

  /** `d.get(k)`: the value stored under `k`, or `None` when `k` is not a key. */
  function Get<V(==)>(d: Dict<V>, k: string): (r: Option<V>)
    ensures r.None? <==> k !in Keys(d)
    ensures r.Some? ==> (k, r.value) in d
  {
    if |d| == 0 then None
    else if d[0].0 == k then Some(d[0].1)
    else
      assert forall e | e in d[1..] :: e in d;
      assert forall e | e in d && e.0 != d[0].0 :: e in d[1..];
      Get(d[1..], k)
  }

  /** With distinct keys, looking up the key of an entry finds that entry's value. */
  lemma {:induction false} GetEntry<V>(d: Dict<V>, i: nat)
    requires DistinctKeys(d)
    requires i < |d|
    ensures Get(d, d[i].0) == Some(d[i].1)
  {
    if i > 0 {
      assert d[1..][i - 1] == d[i];
      assert DistinctKeys(d[1..]) by {
        forall a, b | 0 <= a < b < |d| - 1
          ensures d[1..][a].0 != d[1..][b].0
        {
          assert d[1..][a] == d[a + 1] && d[1..][b] == d[b + 1];
        }
      }
      GetEntry(d[1..], i - 1);
    }
  }

  function ColumnNames(cols: seq<Column>): set<string>
  {
    set c | c in cols :: c.name
  }

  /** Column names are unique within a table. */
  predicate DistinctColumnNames(cols: seq<Column>)
  {
    forall i, j :: 0 <= i < j < |cols| ==> cols[i].name != cols[j].name
  }

  lemma DistinctColumnNamesTail(cols: seq<Column>)
    requires DistinctColumnNames(cols)
    requires |cols| > 0
    ensures DistinctColumnNames(cols[1..])
    ensures forall c <- cols[1..] :: c.name != cols[0].name
  {
    var tail := cols[1..];
    forall a, b | 0 <= a < b < |tail|
      ensures tail[a].name != tail[b].name
    {
      assert tail[a] == cols[a + 1] && tail[b] == cols[b + 1];
    }
    forall c | c in tail
      ensures c.name != cols[0].name
    {
      var m :| 0 <= m < |tail| && tail[m] == c;
      assert cols[m + 1] == c;
    }
  }

  /** `{col['COLUMN_NAME']: col for col in cols}.get(name)`: the comprehension
      lets a later column of the same name overwrite an earlier one, so this is
      the LAST column called `name`. */
  function FindColumn(cols: seq<Column>, name: string): (r: Option<Column>)
    ensures r.None? <==> name !in ColumnNames(cols)
    ensures r.Some? ==> r.value in cols && r.value.name == name
  {
    if |cols| == 0 then None
    else
      var last := cols[|cols| - 1];
      var init := cols[..|cols| - 1];
      assert cols == init + [last];
      if last.name == name then Some(last)
      else FindColumn(init, name)
  }

  /** Looking a column up by its name finds it when no later column has that
      name; with unique names, that is every column. */
  lemma {:induction false} FindColumnAt(cols: seq<Column>, i: nat)
    requires i < |cols|
    requires forall j :: i < j < |cols| ==> cols[j].name != cols[i].name
    ensures FindColumn(cols, cols[i].name) == Some(cols[i])
  {
    if i < |cols| - 1 {
      var init := cols[..|cols| - 1];
      assert init[i] == cols[i];
      FindColumnAt(init, i);
    }
  }

  /** Everything introspection yields for one table: its columns in ordinal
      order, its indexes and foreign keys by name, and the text of
      `SHOW CREATE TABLE`. */
  datatype Table = Table(
    name: string,
    columns: seq<Column>,
    indexes: Dict<Index>,
    foreignKeys: Dict<ForeignKey>,
    createStatement: string)

  /** A database: its tables in `SHOW TABLES` order. */
  type Database = seq<Table>

  function TableNames(db: Database): set<string>
  {
    set t | t in db :: t.name
  }

  lemma TableNamesCons(db: Database)
    requires db != []
    ensures TableNames(db) == {db[0].name} + TableNames(db[1..])
  {
    assert db == [db[0]] + db[1..];
  }

  /** The structure introspection returns for a table that `SHOW TABLES` listed. */
  function FindTable(db: Database, name: string): (r: Option<Table>)
    ensures r.None? <==> name !in TableNames(db)
    ensures r.Some? ==> r.value in db && r.value.name == name
  {
    if |db| == 0 then None
    else if db[0].name == name then Some(db[0])
    else
      assert forall t | t in db && t.name != db[0].name :: t in db[1..];
      FindTable(db[1..], name)
  }

  /** Looking a table up by its name finds it when no earlier table has that name. */
  lemma {:induction false} FindTableAt(db: Database, i: nat)
    requires i < |db|
    requires forall j :: 0 <= j < i ==> db[j].name != db[i].name
    ensures FindTable(db, db[i].name) == Some(db[i])
  {
    if i > 0 {
      assert db[1..][i - 1] == db[i];
      FindTableAt(db[1..], i - 1);
    }
  }

  /** What a real catalog guarantees: table names are unique, and within each
      table so are column, index and constraint names. */
  predicate WellFormed(db: Database)
  {
    && (forall i, j :: 0 <= i < j < |db| ==> db[i].name != db[j].name)
    && (forall i :: 0 <= i < |db| ==>
          DistinctColumnNames(db[i].columns)
          && DistinctKeys(db[i].indexes)
          && DistinctKeys(db[i].foreignKeys))
  }
}

=== FILE: sync.dfy ===
/** Script assembly, `generate_sync_sql` with introspection abstracted: the
    source and target snapshots are inputs, and so are the orders in which
    Python happens to iterate the three set differences. */
module Sync {
  import opened Base
  import opened Schema
  import opened Ddl
  import opened ColumnDiff
  import opened IndexDiff
  import opened ForeignKeyDiff

  /** One entry of `sql_commands`. */
  datatype Line =
    | Banner
    | ChecksOff
    | CreateComment(table: string)
    | CreateText(text: string)
    | Alter(stmt: Stmt)
    | DropComment(table: string)
    | DropTable(table: string)
    | ChecksOn
  {
    /** The two entries written for a target-only table. */
    predicate IsTableDrop()
    {
      DropComment? || DropTable?
    }
  }

  /** The text of each entry, as db_sync.py builds it. The comment entries and
      the closing switch open with a line break; the other fixed entries do
      not. */
  function RenderLine(l: Line): (r: string)
    ensures l.CreateComment? || l.DropComment? || l.ChecksOn? ==> |r| > 0 && r[0] == '\n'
    ensures l.Banner? || l.ChecksOff? || l.DropTable? || l.Alter? ==> |r| > 0 && r[0] != '\n'
  {
    match l
    case Banner => "-- Database synchronization script"
    case ChecksOff => "SET FOREIGN_KEY_CHECKS = 0;"
    case CreateComment(t) => "\n-- Create new table " + t
    case CreateText(x) => x
    case Alter(s) => RenderStmt(s)
    case DropComment(t) => "\n-- Drop table " + t
    case DropTable(t) => "DROP TABLE " + Quote(t)
    case ChecksOn => "\nSET FOREIGN_KEY_CHECKS = 1;"
  }

  /** The set-iteration orders the differs of one shared table use. */
  datatype TableOrder = TableOrder(indexDrops: seq<string>, foreignKeyDrops: seq<string>)

  /** The orders of a whole run: one per source table, and the order of the
      target-only tables. */
  datatype Orders = Orders(tables: seq<TableOrder>, tableDrops: seq<string>)

  /** The orders of a source table enumerate its two drop sets, when the table
      exists in the target. */
  predicate OrderFits(t: Table, target: Database, o: TableOrder)
  {
    match FindTable(target, t.name)
    case None => true
    case Some(u) =>
      IsEnumeration(o.indexDrops, Keys(u.indexes) - Keys(t.indexes))
      && IsEnumeration(o.foreignKeyDrops, Keys(u.foreignKeys) - Keys(t.foreignKeys))
  }

  predicate OrdersFit(tables: seq<Table>, target: Database, orders: seq<TableOrder>)
  {
    |orders| == |tables| && forall i :: 0 <= i < |tables| ==> OrderFits(tables[i], target, orders[i])
  }

  lemma OrdersFitTail(tables: seq<Table>, target: Database, orders: seq<TableOrder>)
    requires OrdersFit(tables, target, orders)
    requires tables != []
    ensures OrdersFit(tables[1..], target, orders[1..])
  {
    forall i | 0 <= i < |tables| - 1
      ensures OrderFits(tables[1..][i], target, orders[1..][i])
    {
      assert tables[1..][i] == tables[i + 1] && orders[1..][i] == orders[i + 1];
    }
  }

  predicate ValidOrders(source: Database, target: Database, o: Orders)
  {
    OrdersFit(source, target, o.tables)
    && IsEnumeration(o.tableDrops, TableNames(target) - TableNames(source))
  }

  /** The statements for a table both sides have: its column, index and foreign
      key diffs, in that order. */
  function TableStmts(t: Table, u: Table, o: TableOrder): (r: seq<Stmt>)
    requires IsEnumeration(o.indexDrops, Keys(u.indexes) - Keys(t.indexes))
    requires IsEnumeration(o.foreignKeyDrops, Keys(u.foreignKeys) - Keys(t.foreignKeys))
    ensures forall s <- r :: s.table == t.name
  {
    ColumnSql(t.name, t.columns, u.columns)
      + IndexSql(t.name, t.indexes, u.indexes, o.indexDrops)
      + ForeignKeySql(t.name, t.foreignKeys, u.foreignKeys, o.foreignKeyDrops)
  }

  function Alters(stmts: seq<Stmt>): (r: seq<Line>)
    ensures |r| == |stmts|
    ensures forall k :: 0 <= k < |r| ==> r[k] == Alter(stmts[k])
  {
    seq(|stmts|, k requires 0 <= k < |stmts| => Alter(stmts[k]))
  }

  /** The body of the table loop for one source table: a comment and the
      verbatim CREATE text when the target lacks the table, its diff otherwise. */
  function TableLines(t: Table, target: Database, o: TableOrder): (r: seq<Line>)
    requires OrderFits(t, target, o)
    ensures forall l <- r :: l.CreateComment? || l.CreateText? || l.Alter?
  {
    match FindTable(target, t.name)
    case None => [CreateComment(t.name), CreateText(t.createStatement)]
    case Some(u) => Alters(TableStmts(t, u, o))
  }

  /** The table loop over the source tables, in `SHOW TABLES` order. */
  function TablePass(tables: seq<Table>, target: Database, orders: seq<TableOrder>): (r: seq<Line>)
    requires OrdersFit(tables, target, orders)
    ensures forall l <- r :: !l.IsTableDrop() && !l.Banner? && !l.ChecksOff? && !l.ChecksOn?
  {
    if tables == [] then []
    else
      var head := TableLines(tables[0], target, orders[0]);
      OrdersFitTail(tables, target, orders);
      head + TablePass(tables[1..], target, orders[1..])
  }

  /** The DROP TABLE loop over the target-only tables. */
  function DropTables(order: seq<string>): (r: seq<Line>)
    ensures |r| == 2 * |order|
    ensures forall l <- r :: l.IsTableDrop()
  {
    if order == [] then []
    else [DropComment(order[0]), DropTable(order[0])] + DropTables(order[1..])
  }

  /** Each name of the drop order gets its comment and then its DROP TABLE, in
      the order's order. */
  lemma {:induction false} DropTablesEntries(order: seq<string>)
    ensures var r := DropTables(order);
      forall k :: 0 <= k < |order| ==> r[2 * k] == DropComment(order[k]) && r[2 * k + 1] == DropTable(order[k])
  {
    if order != [] {
      var rest := DropTables(order[1..]);
      var r := [DropComment(order[0]), DropTable(order[0])] + rest;
      assert DropTables(order) == r;
      DropTablesEntries(order[1..]);
      forall k | 1 <= k < |order|
        ensures r[2 * k] == DropComment(order[k]) && r[2 * k + 1] == DropTable(order[k])
      {
        assert r[2 * k] == rest[2 * (k - 1)] && r[2 * k + 1] == rest[2 * (k - 1) + 1];
        assert order[1..][k - 1] == order[k];
      }
    }
  }

  /** `generate_sync_sql` as a list of entries. */
  function SyncScript(source: Database, target: Database, o: Orders): (r: seq<Line>)
    requires ValidOrders(source, target, o)
    ensures |r| >= 3 && r[0] == Banner && r[1] == ChecksOff && r[|r| - 1] == ChecksOn
  {
    [Banner, ChecksOff] + TablePass(source, target, o.tables) + DropTables(o.tableDrops) + [ChecksOn]
  }

  /** Each entry's text, in order. */
  function RenderAll(lines: seq<Line>): (r: seq<string>)
    ensures |r| == |lines|
    ensures forall k :: 0 <= k < |r| ==> r[k] == RenderLine(lines[k])
  {
    seq(|lines|, k requires 0 <= k < |lines| => RenderLine(lines[k]))
  }

  /** `generate_sync_sql` as the strings it returns. */
  function SyncSql(source: Database, target: Database, o: Orders): (r: seq<string>)
    requires ValidOrders(source, target, o)
    ensures |r| == |SyncScript(source, target, o)|
  {
    RenderAll(SyncScript(source, target, o))
  }

  /** The script opens with the banner comment and disables foreign key checks,
      and ends by enabling them again. */
  lemma SyncSqlFraming(source: Database, target: Database, o: Orders)
    requires ValidOrders(source, target, o)
    ensures var r := SyncSql(source, target, o);
      |r| >= 3
      && r[0] == "-- Database synchronization script"
      && r[1] == "SET FOREIGN_KEY_CHECKS = 0;"
      && r[|r| - 1] == "\nSET FOREIGN_KEY_CHECKS = 1;"
  {
    RenderFraming(SyncScript(source, target, o));
  }

  lemma RenderFraming(script: seq<Line>)
    requires |script| >= 3 && script[0] == Banner && script[1] == ChecksOff && script[|script| - 1] == ChecksOn
    ensures var r := RenderAll(script);
      |r| >= 3
      && r[0] == "-- Database synchronization script"
      && r[1] == "SET FOREIGN_KEY_CHECKS = 0;"
      && r[|r| - 1] == "\nSET FOREIGN_KEY_CHECKS = 1;"
  {
    var r := RenderAll(script);
    assert r[0] == RenderLine(Banner);
    assert r[1] == RenderLine(ChecksOff);
    assert r[|r| - 1] == RenderLine(ChecksOn);
  }

  /** For a shared table, column statements come before index statements, which
      come before foreign key statements. */
  lemma TableStmtsOrder(t: Table, u: Table, o: TableOrder)
    requires IsEnumeration(o.indexDrops, Keys(u.indexes) - Keys(t.indexes))
    requires IsEnumeration(o.foreignKeyDrops, Keys(u.foreignKeys) - Keys(t.foreignKeys))
    ensures var r := TableStmts(t, u, o);
      forall j, k :: 0 <= j < k < |r| ==> r[j].Kind() <= r[k].Kind()
  {
    var c := ColumnSql(t.name, t.columns, u.columns);
    var x := IndexSql(t.name, t.indexes, u.indexes, o.indexDrops);
    var f := ForeignKeySql(t.name, t.foreignKeys, u.foreignKeys, o.foreignKeyDrops);
    KindsSorted(c, x, f);
  }

  lemma KindsSorted(c: seq<Stmt>, x: seq<Stmt>, f: seq<Stmt>)
    requires forall s <- c :: s.IsColumnStmt()
    requires forall s <- x :: s.IsIndexStmt()
    requires forall s <- f :: s.IsForeignKeyStmt()
    ensures var r := c + x + f;
      forall j, k :: 0 <= j < k < |r| ==> r[j].Kind() <= r[k].Kind()
  {
    var r := c + x + f;
    assert forall j | 0 <= j < |c| :: r[j] == c[j] && c[j] in c;
    assert forall j | |c| <= j < |c| + |x| :: r[j] == x[j - |c|] && x[j - |c|] in x;
    assert forall j | |c| + |x| <= j < |r| :: r[j] == f[j - |c| - |x|] && f[j - |c| - |x|] in f;
  }

  /** Every DROP TABLE entry, and its comment, comes after every entry of the
      table loop: only further drops and the closing SET follow one. */
  lemma TableDropsLast(source: Database, target: Database, o: Orders)
    requires ValidOrders(source, target, o)
    ensures var r := SyncScript(source, target, o);
      forall j, k :: 0 <= j < k < |r| && r[j].IsTableDrop() ==> r[k].IsTableDrop() || r[k] == ChecksOn
  {
    var front := [Banner, ChecksOff] + TablePass(source, target, o.tables);
    var drops := DropTables(o.tableDrops);
    DropsFollow(front, drops);
  }

  lemma DropsFollow(front: seq<Line>, drops: seq<Line>)
    requires forall l <- front :: !l.IsTableDrop()
    requires forall l <- drops :: l.IsTableDrop()
    ensures var r := front + drops + [ChecksOn];
      forall j, k :: 0 <= j < k < |r| && r[j].IsTableDrop() ==> r[k].IsTableDrop() || r[k] == ChecksOn
  {
    var r := front + drops + [ChecksOn];
    assert forall j | 0 <= j < |front| :: r[j] == front[j] && front[j] in front;
    assert forall j | |front| <= j < |front| + |drops| :: r[j] == drops[j - |front|] && drops[j - |front|] in drops;
  }

  /** The table loop writes a CREATE comment for a name exactly when a source
      table has that name and the target has no table of that name. */
  lemma {:induction false} TablePassCreates(tables: seq<Table>, target: Database, orders: seq<TableOrder>, name: string)
    requires OrdersFit(tables, target, orders)
    ensures CreateComment(name) in TablePass(tables, target, orders)
        <==> name in TableNames(tables) && name !in TableNames(target)
  {
    if tables != [] {
      OrdersFitTail(tables, target, orders);
      TablePassCreates(tables[1..], target, orders[1..], name);
      TableLinesCreates(tables[0], target, orders[0], name);
      TableNamesCons(tables);
      assert TablePass(tables, target, orders)
          == TableLines(tables[0], target, orders[0]) + TablePass(tables[1..], target, orders[1..]);
    }
  }

  /** One table's entries hold a CREATE comment for `name` exactly when it is
      that table's name and the target lacks it. */
  lemma TableLinesCreates(t: Table, target: Database, o: TableOrder, name: string)
    requires OrderFits(t, target, o)
    ensures CreateComment(name) in TableLines(t, target, o) <==> name == t.name && name !in TableNames(target)
  {
  }

  /** A source table missing from the target is never altered: the table loop
      writes no ALTER TABLE on it. */
  lemma {:induction false} NewTableNotAltered(tables: seq<Table>, target: Database, orders: seq<TableOrder>, name: string)
    requires OrdersFit(tables, target, orders)
    requires name !in TableNames(target)
    ensures forall l <- TablePass(tables, target, orders) :: l.Alter? ==> l.stmt.table != name
  {
    if tables != [] {
      var t := tables[0];
      OrdersFitTail(tables, target, orders);
      NewTableNotAltered(tables[1..], target, orders[1..], name);
      TableLinesAlter(t, target, orders[0]);
      assert TablePass(tables, target, orders)
          == TableLines(t, target, orders[0]) + TablePass(tables[1..], target, orders[1..]);
    }
  }

  /** A table's ALTER lines are on that table, which the target has. */
  lemma TableLinesAlter(t: Table, target: Database, o: TableOrder)
    requires OrderFits(t, target, o)
    ensures forall l <- TableLines(t, target, o) :: l.Alter? ==> l.stmt.table == t.name && t.name in TableNames(target)
  {
    match FindTable(target, t.name)
    case None =>
    case Some(u) =>
      var r := TableLines(t, target, o);
      forall l | l in r
        ensures l.stmt.table == t.name
      {
        var k :| 0 <= k < |r| && r[k] == l;
        assert TableStmts(t, u, o)[k] in TableStmts(t, u, o);
      }
  }

  /** A source table missing from the target has its CREATE text written. */
  lemma {:induction false} NewTableCreated(tables: seq<Table>, target: Database, orders: seq<TableOrder>, i: nat)
    requires OrdersFit(tables, target, orders)
    requires i < |tables|
    requires tables[i].name !in TableNames(target)
    ensures CreateText(tables[i].createStatement) in TablePass(tables, target, orders)
  {
    var head := TableLines(tables[0], target, orders[0]);
    OrdersFitTail(tables, target, orders);
    var rest := TablePass(tables[1..], target, orders[1..]);
    assert TablePass(tables, target, orders) == head + rest;
    if i == 0 {
      assert head == [CreateComment(tables[0].name), CreateText(tables[0].createStatement)];
      assert head[1] in head;
    } else {
      assert tables[1..][i - 1] == tables[i];
      NewTableCreated(tables[1..], target, orders[1..], i - 1);
    }
  }

  /** A DROP TABLE for `name` appears as often as `name` occurs in the drop
      order. */
  lemma {:induction false} DropTablesCount(order: seq<string>, name: string)
    ensures multiset(DropTables(order))[DropTable(name)] == multiset(order)[name]
  {
    if order != [] {
      DropTablesCount(order[1..], name);
      assert order == [order[0]] + order[1..];
      assert DropTables(order) == [DropComment(order[0]), DropTable(order[0])] + DropTables(order[1..]);
    }
  }

  /** Every target-only table is dropped exactly once, and no other table is
      dropped. */
  lemma TableDropCount(source: Database, target: Database, o: Orders, name: string)
    requires ValidOrders(source, target, o)
    ensures multiset(SyncScript(source, target, o))[DropTable(name)]
         == if name in TableNames(target) && name !in TableNames(source) then 1 else 0
  {
    var pass := TablePass(source, target, o.tables);
    var drops := DropTables(o.tableDrops);
    assert SyncScript(source, target, o) == [Banner, ChecksOff] + pass + drops + [ChecksOn];
    assert DropTable(name) !in pass;
    DropTablesCount(o.tableDrops, name);
  }

  /** Table loop entries for tables the target has in the same shape: no
      statement at all. */
  lemma {:induction false} TablePassAgainstItself(tables: seq<Table>, db: Database, orders: seq<TableOrder>)
    requires OrdersFit(tables, db, orders)
    requires forall t <- tables :: FindTable(db, t.name) == Some(t)
    requires forall t <- tables ::
      DistinctColumnNames(t.columns) && DistinctKeys(t.indexes) && DistinctKeys(t.foreignKeys)
    ensures TablePass(tables, db, orders) == []
  {
    if tables != [] {
      var t := tables[0];
      assert t in tables;
      assert OrderFits(t, db, orders[0]);
      ColumnSqlAgainstItself(t.name, t.columns);
      IndexSqlAgainstItself(t.name, t.indexes, orders[0].indexDrops);
      ForeignKeySqlAgainstItself(t.name, t.foreignKeys, orders[0].foreignKeyDrops);
      assert TableLines(t, db, orders[0]) == [];
      OrdersFitTail(tables, db, orders);
      assert forall t' <- tables[1..] :: t' in tables;
      TablePassAgainstItself(tables[1..], db, orders[1..]);
    }
  }

  /** Synchronizing a well-formed database with itself yields only the framing:
      the banner, and foreign key checks switched off and on again. */
  lemma SyncAgainstItself(db: Database, o: Orders)
    requires WellFormed(db)
    requires ValidOrders(db, db, o)
    ensures SyncScript(db, db, o) == [Banner, ChecksOff, ChecksOn]
  {
    forall t | t in db
      ensures FindTable(db, t.name) == Some(t)
    {
      var i :| 0 <= i < |db| && db[i] == t;
      FindTableAt(db, i);
    }
    TablePassAgainstItself(db, db, o.tables);
    assert TableNames(db) - TableNames(db) == {};
    EnumerationOfEmpty(o.tableDrops);
  }
}

=== FILE: text.dfy ===
/** The Python string operations the schema-diff engine relies on, with the
    semantics Python gives them: `str.strip()`, `str.split(',')`, `', '.join(...)`,
    `str.upper()` (on ASCII letters), `str.replace("'", "")` and `str(int)`. */
module Text {
  import opened Base

  /** The characters for which Python's `str.isspace()` holds, i.e. the ones
      `str.strip()` removes from either end. */
  predicate IsSpace(c: char)
  {
    || c == ' ' || c == '\t' || c == '\n' || c == '\r' || c == '\U{000B}' || c == '\U{000C}'
    || ('\U{001C}' <= c <= '\U{001F}')
    || c == '\U{0085}' || c == '\U{00A0}' || c == '\U{1680}'
    || ('\U{2000}' <= c <= '\U{200A}')
    || c == '\U{2028}' || c == '\U{2029}' || c == '\U{202F}' || c == '\U{205F}' || c == '\U{3000}'
  }

  predicate AllSpace(s: string)
  {
    forall i :: 0 <= i < |s| ==> IsSpace(s[i])
  }

  /** Length of the run of whitespace that opens `s`. */
  function LeadingSpaces(s: string): (k: nat)
    ensures k <= |s|
    ensures AllSpace(s[..k])
    ensures k == |s| || !IsSpace(s[k])
  {
    if |s| > 0 && IsSpace(s[0]) then
      var k := 1 + LeadingSpaces(s[1..]);
      assert s[..k] == [s[0]] + s[1..][..k - 1];
      k
    else 0
  }

  /** `s.rstrip()`: `s` without its closing run of whitespace. */
  function TrimEnd(s: string): (r: string)
    ensures |r| <= |s| && r == s[..|r|]
    ensures AllSpace(s[|r|..])
    ensures r == [] || !IsSpace(r[|r| - 1])
  {
    if |s| > 0 && IsSpace(s[|s| - 1]) then
      var r := TrimEnd(s[..|s| - 1]);
      assert s[|r|..] == s[..|s| - 1][|r|..] + [s[|s| - 1]];
      r
    else s
  }

  /** `s.strip()`: the infix of `s` left after removing whitespace at both ends;
      it is empty exactly when `s` is all whitespace, and otherwise neither
      begins nor ends with whitespace. */
  function Trim(s: string): (r: string)
    ensures LeadingSpaces(s) + |r| <= |s|
    ensures r == s[LeadingSpaces(s)..LeadingSpaces(s) + |r|]
    ensures AllSpace(s[..LeadingSpaces(s)]) && AllSpace(s[LeadingSpaces(s) + |r|..])
    ensures r == [] || (!IsSpace(r[0]) && !IsSpace(r[|r| - 1]))
    ensures r == [] <==> AllSpace(s)
  {
    var k := LeadingSpaces(s);
    var r := TrimEnd(s[k..]);
    assert s[k + |r|..] == s[k..][|r|..];
    assert s == s[..k] + s[k..];
    r
  }

  /** A string with no whitespace at either end is its own strip. */
  lemma TrimNoop(s: string)
    requires s == [] || (!IsSpace(s[0]) && !IsSpace(s[|s| - 1]))
    ensures Trim(s) == s
  {
    if s != [] {
      assert LeadingSpaces(s) == 0;
    }
  }

  /** `str.strip()` is idempotent. */
  lemma TrimIdempotent(s: string)
    ensures Trim(Trim(s)) == Trim(s)
  {
    TrimNoop(Trim(s));
  }

  /** Whitespace in front of a string does not change its strip. */
  lemma TrimSkipsLeadingSpace(c: char, s: string)
    requires IsSpace(c)
    ensures Trim([c] + s) == Trim(s)
  {
    var t := [c] + s;
    assert t[1..] == s;
    assert LeadingSpaces(t) == 1 + LeadingSpaces(s);
    assert t[LeadingSpaces(t)..] == s[LeadingSpaces(s)..];
  }

  /** Python's `sep.join(parts)`. */
  function Join(parts: seq<string>, sep: string): string
  {
    if |parts| == 0 then ""
    else if |parts| == 1 then parts[0]
    else parts[0] + sep + Join(parts[1..], sep)
  }

  /** Joining pieces that all begin and end with `x` gives a text that begins
      and ends with `x`. */
  lemma {:induction false} JoinEnds(parts: seq<string>, sep: string, x: char)
    requires |parts| >= 1
    requires forall p <- parts :: |p| > 0 && p[0] == x && p[|p| - 1] == x
    ensures var j := Join(parts, sep); |j| > 0 && j[0] == x && j[|j| - 1] == x
  {
    if |parts| > 1 {
      assert parts[0] in parts;
      assert forall p <- parts[1..] :: p in parts;
      JoinEnds(parts[1..], sep, x);
      var rest := Join(parts[1..], sep);
      assert Join(parts, sep) == parts[0] + sep + rest;
    }
  }

  /** Python's `s.split(sep)` for a one-character separator: the pieces between
      separators, at least one, none containing `sep`, that join back into `s`. */
  function Split(s: string, sep: char): (parts: seq<string>)
    ensures |parts| >= 1
    ensures forall p <- parts :: sep !in p
    ensures Join(parts, [sep]) == s
    decreases |s|
  {
    if |s| == 0 then [""]
    else
      var rest := Split(s[1..], sep);
      if s[0] == sep then
        assert s == [sep] + s[1..];
        [""] + rest
      else
        var parts := [[s[0]] + rest[0]] + rest[1..];
        assert parts[1..] == rest[1..];
        assert s == [s[0]] + s[1..];
        parts
  }

  /** Splitting a string that does not contain the separator gives it back whole. */
  lemma {:induction false} SplitWithoutSeparator(a: string, sep: char)
    requires sep !in a
    ensures Split(a, sep) == [a]
    decreases |a|
  {
    if |a| > 0 {
      SplitWithoutSeparator(a[1..], sep);
      assert [a[0]] + a[1..] == a;
    }
  }

  /** Splitting at the first separator peels off the piece before it. */
  lemma {:induction false} SplitAtFirstSeparator(a: string, b: string, sep: char)
    requires sep !in a
    ensures Split(a + [sep] + b, sep) == [a] + Split(b, sep)
    decreases |a|
  {
    var s := a + [sep] + b;
    if |a| == 0 {
      assert s[1..] == b;
    } else {
      assert s[1..] == a[1..] + [sep] + b;
      SplitAtFirstSeparator(a[1..], b, sep);
      assert [a[0]] + a[1..] == a;
    }
  }

  /** `s.split(sep)` undoes `sep.join(parts)` whenever no part contains `sep`. */
  lemma {:induction false} SplitJoinRoundTrip(parts: seq<string>, sep: char)
    requires |parts| >= 1
    requires forall p <- parts :: sep !in p
    ensures Split(Join(parts, [sep]), sep) == parts
    decreases |parts|
  {
    if |parts| == 1 {
      SplitWithoutSeparator(parts[0], sep);
    } else {
      SplitJoinRoundTrip(parts[1..], sep);
      SplitAtFirstSeparator(parts[0], Join(parts[1..], [sep]), sep);
      assert [parts[0]] + parts[1..] == parts;
    }
  }

  /** Python's `c.upper()` restricted to ASCII: `a`..`z` become `A`..`Z`. */
  function UpperChar(c: char): (u: char)
  {
    if 'a' <= c <= 'z' then (c as int - 'a' as int + 'A' as int) as char else c
  }

  /** `s.upper()` on ASCII text. */
  function AsciiUpper(s: string): (r: string)
    ensures |r| == |s|
    ensures forall i :: 0 <= i < |s| ==> r[i] == UpperChar(s[i])
  {
    seq(|s|, i requires 0 <= i < |s| => UpperChar(s[i]))
  }

  /** `s.replace(c, "")`: `s` with every occurrence of `c` deleted; it is `s`
      itself exactly when `s` has no `c`. */
  function RemoveAll(s: string, c: char): (r: string)
    ensures c !in r
    ensures |r| <= |s|
    ensures c in s ==> |r| < |s|
    ensures c !in s ==> r == s
  {
    if |s| == 0 then ""
    else
      var rest := RemoveAll(s[1..], c);
      assert s == [s[0]] + s[1..];
      if s[0] == c then rest else [s[0]] + rest
  }

  /** Every character other than `c` keeps its number of occurrences. */
  lemma {:induction false} RemoveAllKeepsOthers(s: string, c: char, x: char)
    requires x != c
    ensures multiset(RemoveAll(s, c))[x] == multiset(s)[x]
  {
    if |s| > 0 {
      RemoveAllKeepsOthers(s[1..], c, x);
      assert s == [s[0]] + s[1..];
      assert multiset(s) == multiset{s[0]} + multiset(s[1..]);
    }
  }

  /** Deleting a character commutes with concatenation, which pins down the order
      of the characters that are kept. */
  lemma {:induction false} RemoveAllAppend(a: string, b: string, c: char)
    ensures RemoveAll(a + b, c) == RemoveAll(a, c) + RemoveAll(b, c)
    decreases |a|
  {
    if |a| > 0 {
      assert (a + b)[1..] == a[1..] + b;
      RemoveAllAppend(a[1..], b, c);
    } else {
      assert a + b == b;
    }
  }

  predicate IsDigit(c: char)
  {
    '0' <= c <= '9'
  }

  predicate AllDigits(s: string)
  {
    forall i :: 0 <= i < |s| ==> IsDigit(s[i])
  }

  function DigitChar(d: nat): (c: char)
    requires d < 10
    ensures IsDigit(c)
  {
    ('0' as int + d) as char
  }

  /** The decimal digits of `n`, as Python's `str(n)` writes a non-negative int:
      at least one digit, and no leading zero unless `n` is 0. */
  function NatToString(n: nat): (r: string)
    ensures |r| >= 1 && AllDigits(r)
    ensures r[0] == '0' ==> n == 0
  {
    if n < 10 then [DigitChar(n)]
    else NatToString(n / 10) + [DigitChar(n % 10)]
  }

  /** Python's `str(n)` for an int: a minus sign for negatives, then the digits. */
  function IntToString(n: int): (r: string)
  {
    if n < 0 then "-" + NatToString(-n) else NatToString(n)
  }

  /** The value of a string of decimal digits. */
  function DigitsValue(s: string): nat
    requires AllDigits(s)
  {
    if |s| == 0 then 0
    else DigitsValue(s[..|s| - 1]) * 10 + (s[|s| - 1] as int - '0' as int)
  }

  /** Reads an optionally negative decimal integer, as a SQL parser reads a
      numeric literal; `None` when the text is not one. */
  function ParseInt(s: string): Option<int>
  {
    if |s| >= 2 && s[0] == '-' && AllDigits(s[1..]) then Some(0 - DigitsValue(s[1..]))
    else if |s| >= 1 && AllDigits(s) then Some(DigitsValue(s))
    else None
  }

  lemma {:induction false} NatToStringRoundTrip(n: nat)
    ensures DigitsValue(NatToString(n)) == n
  {
    if n >= 10 {
      NatToStringRoundTrip(n / 10);
      var r := NatToString(n);
      assert r[..|r| - 1] == NatToString(n / 10);
    }
  }

  /** Printing an int and reading it back yields the same int. */
  lemma IntToStringRoundTrip(n: int)
    ensures ParseInt(IntToString(n)) == Some(n)
  {
    if n < 0 {
      NatToStringRoundTrip(-n);
      assert IntToString(n)[1..] == NatToString(-n);
    } else {
      NatToStringRoundTrip(n);
    }
  }
}
